=== FILE: README.md ===
# QueryPDF: resumable chunk pipeline, router and fleet controller

This is a Dafny model of the core of QueryPDF, which has three parts.

- **The admin worker's resumable chunk pipeline.** `app/admin/admin.py` and the older `admin/admin.py` split an uploaded PDF into chunks. For each chunk they upload a FAISS index and a pickled docstore, then record the chunk as PROCESSED in a checkpoint table. A later run resumes one past the highest recorded chunk. The two variants differ only in where artifacts go:
  - a bucket per request, `GPI-{request_id}`;
  - one shared bucket, `gen-ai-pdf-interaction`.
- **The routing function and its fleet controller** (`app/home/lambda_function.py`). The router maps `/admin/...` and `/user/...` paths to a role and a consumer name. The controller then either creates the role's ECS service for the region, with one task, a subnet, tags and CPU autoscaling, or adds one task to a service that already exists.
- **The resource fetcher** (`app/aws_resource_fetcher.py`). It finds the project's cloud resources by their tags.

The cloud services become values in the model:
- the checkpoint table is a map from (request id, chunk id) to status;
- the object store is a map from (bucket, key) to the chunk an artifact was built from;
- the ECS cluster is a list of service ARNs plus a map from service name to its record;
- every listing call is replaced by the sequence of records it returned.

Other things become parameters:
- PDF loading, splitting, embedding and FAISS are opaque: the chunk sequence is an input;
- random UUIDs are an input;
- the function's region is an input.

Modules, one per file:
- `Common`: `Option`.
- `Text`: Python's `startswith`, `endswith`, `split`, `split(...)[-1]` and `str(int)`.
- `Tags`: the last-wins tag dictionary.
- `ResourceFetcher`.
- `Checkpoint`.
- `Pipeline`.
- `AdminMain`: the upload, resume and legacy entry points.
- `Fleet`.
- `Router`.

Choices the model makes about the code, where the code's behaviour is easy to misread:
- **Which chunk resumes.** The resume point is one past the highest ChunkID with any row, whatever its status. It is not the highest PROCESSED chunk.
- **Failures.** The code writes no FAILED row, and `create_vector_store` only ever returns True. A call that raises ends the run with no row for the failing chunk; `Pipeline.InterruptedRun` models that state.
- **The uploads.** As written, the step uploads files that nothing writes, so it raises no later than its first upload (see Findings). `Pipeline.CreateVectorStore` models the step that uploads the files `save_local` wrote.
- **The failed-request list.** It has one entry per FAILED row. Duplicates are kept, and it does not look at each request's latest status.
- **Desired count.** It is raised by one on every request for an existing service, even past the policy maximum of 10.
- **Container-id collisions.** They are checked against the ContainerInfo table.

## Model

| member | source | states |
|---|---|---|
| Text.Split | app/home/lambda_function.py:157 | `split('/')` gives at least one field, even for the empty path; what the fields are is stated by Text.SplitJoin |
| Text.StartsWith | app/home/lambda_function.py:159-162 | `str.startswith`: the string begins with the prefix (also `re.match` with a literal pattern at line 55) |
| Text.EndsWith | app/home/lambda_function.py:71 | `str.endswith`: the string ends with the suffix |
| Text.SplitJoin | app/home/lambda_function.py:157 | no field of `split('/')` holds the separator, and joining the fields with it gives the path back |
| Text.SplitConcat | app/home/lambda_function.py:157 | splitting `a + sep + b` splits `a` and `b` independently and concatenates the fields |
| Text.SplitLength | app/home/lambda_function.py:157 | the number of fields is the number of separators plus one |
| Text.LastField | app/home/lambda_function.py:45 | `split('-')[-1]` is the separator-free text after the last separator, or the whole string when it has none |
| Text.LastSeparatorDetermines | app/admin/admin.py:104-105 | two strings of the form head + sep + separator-free tail are equal only when both heads and both tails are equal |
| Text.NatToStringRoundTrip | app/admin/admin.py:85 | `int(str(chunk_id)) == chunk_id`: the ChunkID written as a decimal string reads back unchanged |
| Text.NatToStringInjective | app/admin/admin.py:50 | distinct chunk ids render as distinct decimal strings |
| Text.NatToString | app/admin/admin.py:50 | `str(chunk_id)`: at least one decimal digit, no leading zero; NatToStringRoundTrip and NatToStringInjective state what it means |
| Tags.TagDictLastWins | app/aws_resource_fetcher.py:22 | a key is in the tag dictionary iff some pair has it, and it maps to the value of the LAST such pair |
| Tags.TagDict | app/aws_resource_fetcher.py:22 | the comprehension over no pairs is the empty dict; the last pair's key always maps to the last pair's value (Tags.TagDictLastWins states the rest) |
| Tags.TagValueOr | app/home/lambda_function.py:53-54 | `tag_dict.get('Name', '')` is the last Name pair's value, or the default when there is none |
| ResourceFetcher.FilterByTags | app/aws_resource_fetcher.py:20-23 | the second argument's pairs, as a last-wins dict, hold every predefined tag; the first argument is unread (meaning in ResourceFetcher.FilterByTagsMeaning) |
| ResourceFetcher.FilterByTagsMeaning | app/aws_resource_fetcher.py:20-23 | the filter passes iff each of Application=GPI-App, Environment=Development, Owner=Mohith is the last value of its key; the first argument plays no part |
| ResourceFetcher.ExtraTagIrrelevant | app/aws_resource_fetcher.py:23 | an extra pair with a key that is not predefined never changes the verdict |
| ResourceFetcher.LastDuplicateDecides | app/aws_resource_fetcher.py:22 | a later duplicate of a predefined key decides: the list passes only if that last value is the predefined one |
| ResourceFetcher.PassingNeedsThreeTags | app/aws_resource_fetcher.py:14-23 | a passing list has at least three pairs, so the empty list never passes |
| ResourceFetcher.GetTagsForResource | app/aws_resource_fetcher.py:25-45 | dispatch: an unknown type makes no call and gives []; elbv2 gives `Tags` or []; every other known type gives `Tags`, else `TagList`, else [] |
| ResourceFetcher.TagApiFor | app/aws_resource_fetcher.py:25-45 | which client call each of the seven resource types dispatches to, and none for any other type |
| ResourceFetcher.GetAlb | app/aws_resource_fetcher.py:47-54 | Some iff some load balancer passes, and then the DNS name of the first passing one in response order |
| ResourceFetcher.GetVpc | app/aws_resource_fetcher.py:56-63 | Some iff some VPC passes (tags fetched as type 'subnet'), and then the first passing VPC's id |
| ResourceFetcher.GetSubnets | app/aws_resource_fetcher.py:65-73 | the ids of exactly the passing subnets, in response order |
| ResourceFetcher.GetLambdaFunctions | app/aws_resource_fetcher.py:75-83 | the names of exactly the passing functions, in response order |
| ResourceFetcher.GetDynamoDbTable | app/aws_resource_fetcher.py:85-91 | the table iff its tags pass, else None |
| ResourceFetcher.GetS3Buckets | app/aws_resource_fetcher.py:93-101 | the names of exactly the passing buckets, in response order |
| ResourceFetcher.GetEcsClusters | app/aws_resource_fetcher.py:103-110 | for exactly the passing clusters, in order, the text after the last '/' of the ARN (which holds no '/') |
| ResourceFetcher.GetTargetGroups | app/aws_resource_fetcher.py:112-124 | ARN and name of exactly the groups with SOME Name tag equal to GPI-target-group-admin or -user, in order |
| ResourceFetcher.TargetGroupPasses | app/aws_resource_fetcher.py:118 | a group is kept iff SOME tag has key `Name` and value `GPI-target-group-admin` or `GPI-target-group-user`; there is no last-wins dictionary here |
| ResourceFetcher.GetIamRole | app/aws_resource_fetcher.py:126-133 | Some iff some role passes, and then the first passing role's ARN |
| ResourceFetcher.FirstPassing | app/aws_resource_fetcher.py:49-54 | the index of the first element that passes, all earlier ones failing; None iff none passes |
| ResourceFetcher.PassingIndices | app/aws_resource_fetcher.py:68-72 | strictly increasing indices, holding exactly the positions that pass |
| Checkpoint.SaveCheckpoint | app/admin/admin.py:44-53 | the put makes the key hold the status, adds only that key, and leaves every other row alone |
| Checkpoint.ChunksOf | app/admin/admin.py:75-77 | the chunk ids with a row under the request, exactly |
| Checkpoint.MaxChunk | app/admin/admin.py:79-80 | the largest chunk id, as the descending order on the sort key puts first |
| Checkpoint.QueryLatest | app/admin/admin.py:73-81 | at most one row; none iff the request has no rows; otherwise a row of the request with the highest ChunkID and its stored status |
| Checkpoint.LastProcessedChunk | app/admin/admin.py:72-86 | -1 iff the request has no rows; otherwise a ChunkID with a row, at least every ChunkID of the request |
| Checkpoint.LastProcessedIgnoresStatus | app/admin/admin.py:83-85 | rewriting the status of an existing row never changes the result |
| Checkpoint.FailedRequests | app/admin/admin.py:137-147 | x is listed iff some scanned row with status FAILED has RequestID x; never longer than the scan |
| Checkpoint.FailedRequestsAppend | app/admin/admin.py:145 | the listing keeps scan order and duplicates: it distributes over concatenated scans |
| Checkpoint.FailedRequestsOfTable | app/admin/admin.py:137-147 | over a full scan, a request is listed iff one of its rows holds FAILED |
| Pipeline.ArtifactKeyInjective | app/admin/admin.py:104-105 | `vs_{request_id}_{chunk_id}` + extension keys are equal iff request id and chunk id are |
| Pipeline.BucketFor | app/admin/admin.py:101 | the per-request bucket `GPI-{request_id}`; the older worker's fixed bucket `gen-ai-pdf-interaction` (admin/admin.py:13) |
| Pipeline.ArtifactKey | app/admin/admin.py:104-105 | the object key `vs_{request_id}_{chunk_id}` followed by the extension; ArtifactKeyInjective states that it never collides |
| Pipeline.IndexKey | app/admin/admin.py:104 | the `.faiss` key of one chunk |
| Pipeline.PickleKey | app/admin/admin.py:105 | the `.pkl` key of one chunk; IndexAndPickleDiffer states that it is never an index key |
| Pipeline.SavedFile | app/admin/admin.py:99 | the path `save_local` writes: the folder, then `{request_id}_{chunk_id}` and the extension; UploadReadsUnsavedFile compares it with the uploaded name |
| Pipeline.IndexAndPickleDiffer | app/admin/admin.py:104-105 | an index key never equals a pickle key |
| Pipeline.CreateVectorStore | app/admin/admin.py:95-110 | the evidently intended step, uploading the files `save_local` wrote (see Findings): returns True; the checkpoint effect is exactly a PROCESSED put for the chunk |
| Pipeline.UploadReadsUnsavedFile | app/admin/admin.py:99-105 | as written, the file `upload_file` reads (`vs_{request_id}_{chunk_id}` plus extension, relative to any working directory) is never the file `save_local` wrote under `/vector_stores/` |
| Pipeline.UploadAsWrittenNeverAdvances | app/admin/admin.py:104-134 | as written, the run raises no later than the index upload of the first chunk it reaches, whichever earlier call raises first: for every raise point up to that upload, the table is unchanged and the resume point stays at that chunk |
| Pipeline.CreateVectorStoreObjects | app/admin/admin.py:101-105 | the chunk's index and pickle hold the chunk; no other object is written or changed |
| Pipeline.CreateVectorStoreLog | app/admin/admin.py:101-107 | calls in order: create bucket, index upload, pickle upload, then the PROCESSED checkpoint |
| Pipeline.CreateVectorStoreIdempotent | app/admin/admin.py:95-110 | processing the same chunk twice leaves table, buckets and objects as one pass does |
| Pipeline.RunChunks | app/admin/admin.py:129-134 | chunk ids handed to the transform are from, from+1, ... in order; none when from >= len; a run that did not break reaches the end |
| Pipeline.RunStopsAtFalsy | app/admin/admin.py:131-134 | a falsy result at a chunk ends the loop there; a truthy one moves on to the next chunk |
| Pipeline.NeverFalsyNeverStops | app/admin/admin.py:129-134 | a transform that is never falsy never breaks the loop |
| Pipeline.RunStep | app/admin/admin.py:129-131 | one turn of the real loop: the chunk goes through create_vector_store and the loop carries on |
| Pipeline.VectorStoreRunNeverStops | app/admin/admin.py:110-134 | since create_vector_store returns True, the real loop never breaks |
| Pipeline.RunCheckpointAt | app/admin/admin.py:129-134 | every chunk of the request from the start to the end gains a PROCESSED row; every other row, present or absent, stays as it was |
| Pipeline.RunArtifactsAt | app/admin/admin.py:129-134 | every attempted chunk ends with both artifacts holding that chunk |
| Pipeline.RunKeepsObject | app/admin/admin.py:129-134 | an object that is not an artifact of an attempted chunk is left as it was |
| Pipeline.OwnArtifactsNotAbove | app/admin/admin.py:104-105 | a chunk's artifacts are artifacts of no later chunk |
| Pipeline.ProcessPdf | app/admin/admin.py:113-134 | a run in which no call raises: resumes at last+1; attempts each chunk once, in increasing order, up to len; never breaks; no attempted id is at or below an existing row |
| Pipeline.ProcessPdfCheckpointAt | app/admin/admin.py:107-134 | old rows keep their status; a row appears exactly for each attempted chunk of the request, and holds PROCESSED |
| Pipeline.ProcessPdfArtifactsAt | app/admin/admin.py:101-134 | every attempted chunk ends with both artifacts holding that chunk |
| Pipeline.ResumeKeepsPrefix | app/admin/admin.py:123-129 | from a PROCESSED prefix [0,k) the run attempts exactly k..len-1 and leaves the PROCESSED prefix [0,max(k,len)) |
| Pipeline.PrefixResumesAt | app/admin/admin.py:123-124 | a request whose rows are the PROCESSED prefix [0,k) resumes at chunk k |
| Pipeline.InterruptedRun | app/admin/admin.py:95-134 | a raise inside create_vector_store for chunk j (not caught by process_pdf) leaves the rows of a completed run over chunks before j and no row for j; the orphan index, or index and pickle, of chunk j stay stored, depending on where it raised; no other object differs |
| Pipeline.InterruptedRunLeavesPrefix | app/admin/admin.py:113-134 | from the PROCESSED prefix [0,k), a run that raised at chunk j >= k leaves the PROCESSED prefix [0,j) |
| Pipeline.ResumeAfterInterruption | app/admin/admin.py:123-134 | after such a raise, the next run attempts exactly j..len-1 in order, rewrites chunk j's artifacts from the chunk, and leaves the PROCESSED prefix [0,len) |
| Pipeline.RerunAfterCompletionIsNoop | app/admin/admin.py:123-129 | after a run, a rerun over the same chunks attempts nothing |
| Pipeline.ResumeNeverFillsGaps | app/admin/admin.py:123-124 | a missing chunk below the highest row is not filled in |
| Pipeline.ProcessPdfWritesNoFailed | app/admin/admin.py:107 | the FAILED rows after a run are exactly those before it |
| AdminMain.NameTaken | app/admin/admin.py:168-169 | the listing of `GPI-{name}` with prefix `{name}.pdf` has contents: some object of that bucket has a key starting with the prefix |
| AdminMain.PdfObject | app/admin/admin.py:177 | the uploaded PDF is stored as `{request_id}.pdf` in bucket `GPI-{request_id}` |
| AdminMain.HandleUpload | app/admin/admin.py:158-178 | empty name: nothing; a space: refused; a `{name}.pdf` prefix already in `GPI-{name}`: refused; all unchanged; otherwise request id = name, the PDF is stored as `{name}.pdf`, the run attempts last+1 to the end in order, and every attempted chunk has a PROCESSED row |
| AdminMain.ArtifactIsNotPdf | app/admin/admin.py:168 | no chunk artifact key starts with `{request_id}.pdf`, so only the PDF trips the prefix check |
| AdminMain.ProcessPdfKeepsPdf | app/admin/admin.py:177-178 | the run never overwrites the uploaded PDF |
| AdminMain.SecondUploadRefused | app/admin/admin.py:165-170 | after an upload went through, the same name is refused as already existing |
| AdminMain.ResumeChoices | app/admin/admin.py:181-183 | the placeholder first, then exactly the requests with a FAILED scanned row |
| AdminMain.HandleResume | app/admin/admin.py:185-188 | the placeholder does nothing; any other choice reruns the pipeline from last+1 to the end, leaving PROCESSED rows |
| AdminMain.RunLeavesResumeListAlone | app/admin/admin.py:137-147 | a run never adds a request to, or removes one from, the resume list |
| AdminMain.LegacyRequestId | admin/admin.py:98 | the request id is `admin_` followed by the uuid |
| AdminMain.LegacyUpload | admin/admin.py:94-104 | with no PDF nothing happens; otherwise chunks from last+1 to the end are processed into the shared bucket with their artifacts |
| AdminMain.LegacyFreshUploadProcessesAll | admin/admin.py:77-91 | a fresh request id processes every chunk, from 0 in order |
| AdminMain.LegacyUploadsNeverCollide | admin/admin.py:61-62 | two uuids never share an artifact key in the shared bucket |
| Fleet.CommonTags | app/home/lambda_function.py:37-42 | four tags whose Name is `GPI-ECS-{consumer_name}` |
| Fleet.ServiceName | app/home/lambda_function.py:45-46 | `{role}-service-{az.split('-')[-1]}` |
| Fleet.ServiceNameShape | app/home/lambda_function.py:45-46 | the name starts with `{role}-service-` and ends with a '-'-free tail of the zone |
| Fleet.ServiceNameKeepsOnlySuffix | app/home/lambda_function.py:45-46 | two zones give one role the same service name iff their last '-'-fields agree |
| Fleet.ScanSubnets | app/home/lambda_function.py:49-56 | the subnet loop without a break: each subnet of the zone overwrites the tags, each private one also the subnet id (meaning in Fleet.ScanSubnetsMeaning) |
| Fleet.InZone | app/home/lambda_function.py:51 | the subnet's `AvailabilityZone` is present and equals the zone (`subnet.get` gives None when absent) |
| Fleet.IsPrivate | app/home/lambda_function.py:52-55 | `re.match('GPI-private-subnet', ...)` on the last-wins Name tag, or '' when none: the Name value begins with `GPI-private-subnet` |
| Fleet.ScanSubnetsMeaning | app/home/lambda_function.py:49-56 | the subnet is the LAST private subnet of the zone, None if there is none; the tags are the LAST same-zone subnet's, else the common tags |
| Fleet.ListServices | app/home/lambda_function.py:67-70 | one page: the first min(100, n) ARNs, in order |
| Fleet.ServiceListed | app/home/lambda_function.py:71 | `any(service.endswith(name) for service in serviceArns)` over the listed page |
| Fleet.HandledMessage | app/home/lambda_function.py:141-144 | the 200 body `ECS service handled for {role}: {consumer}, Container ID: {id}` |
| Fleet.ServiceArn | app/home/lambda_function.py:71 | a service ARN ends with its service name |
| Fleet.Failure | app/home/lambda_function.py:146-151 | a caught error answers 500 |
| Fleet.CreateOrUpdateService | app/home/lambda_function.py:33-151 | no region: 500; not listed: one new service with desiredCount 1, the chosen subnet and tags, identity env, target group GPI-target-group-{role}, port 8501, policy min 1/max 10/target 50/cooldowns 300; listed: only desiredCount+1, the ARN list unchanged; each modelled 500 leaves the cluster unchanged; 200 carries the handled message |
| Fleet.CreateOrUpdateKeepsArnsCover | app/home/lambda_function.py:67-96 | every service stays listed by its ARN |
| Fleet.CreateThenScale | app/home/lambda_function.py:71-136 | the first request for a role and zone creates its service with one task; the next one makes it two |
| Fleet.ScaleUpIgnoresMaxCapacity | app/home/lambda_function.py:130-136 | the increment is not capped at the policy maximum of 10 |
| Fleet.HiddenServiceIsRecreated | app/home/lambda_function.py:67-74 | a service whose ARN is past the first 100 is not seen, and the create attempt fails |
| Fleet.CreateOrUpdateAsWritten | app/home/lambda_function.py:45-64 | as written, every call answers 500 and changes nothing |
| Fleet.AsWrittenNeverCreates | app/home/lambda_function.py:61-64 | with a region known, on an empty cluster, the code as written answers 500 where the corrected one answers 200 |
| Fleet.GenerateUniqueContainerId | app/home/lambda_function.py:24-30 | the first candidate not in the ContainerInfo keys; None only when every candidate is taken; the table is only read |
| Router.RouteOf | app/home/lambda_function.py:159-172 | `/admin/` prefix: (admin, admin-service); `/user/` prefix: (user, user-service); any other path: no route |
| Router.ConsumerName | app/home/lambda_function.py:157 | None iff the path has fewer than two '/'; otherwise a '/'-free field |
| Router.ConsumerOfPath | app/home/lambda_function.py:157 | the consumer is the first field after the role: `name` for `/{role}/{name}` and `/{role}/{name}/{rest}`; `/admin/` gives "" |
| Router.FieldsOfRolePath | app/home/lambda_function.py:157 | `/{role}/{after}` splits into "", role, then the fields of after |
| Router.RoutedPathHasConsumer | app/home/lambda_function.py:157-165 | every routed path has a consumer field |
| Router.LambdaHandler | app/home/lambda_function.py:154-184 | unrouted or missing path: 400 "Invalid path" with no service call; routed: a consumer field exists; 500 changes nothing; 200 names the route's role, the path's consumer and the container id, and the service `{role}-service-{zone}` either is created with the route's image, that consumer and one task, or gains exactly one task; 200 exactly when a region is given and the first `list_services` page lists the role's service iff the cluster holds it; every other service keeps its record |
| Router.LambdaHandlerAsWritten | app/home/lambda_function.py:154-184 | as written: 400 for unrouted paths; 500 for every routed one; the cluster is never changed |
| Router.AdminRequestOnEmptyCluster | app/home/lambda_function.py:154-184 | `/admin/{name}/{rest}` on an empty cluster: 500 as written; corrected, 200 naming `name`, with the admin service of the region created |

## Left out

- PDF loading, `RecursiveCharacterTextSplitter`, Bedrock embeddings and FAISS are opaque. The chunk sequence is an input, and an artifact is represented by the chunk it was built from.
- Streamlit output is not modelled, and neither is the local copy of the uploaded file. Only the branches of the upload and resume forms are.
- The heartbeat thread (`save_heartbeat`) and `save_container_info` are not modelled. The thread is an endless timed loop. As written, `main` raises at app/admin/admin.py:154 because `request_id` is not yet bound there. The model starts at the upload form, line 158.
- S3 bucket-existence semantics are not modelled:
  - `list_objects_v2` and `upload_file` against a bucket that does not exist yet;
  - `create_bucket` on an existing bucket.
  The object store is a plain map.
- ECS, autoscaling and target-group registration are reduced to the fields they record. The model covers no pagination beyond the first `list_services` page, and no launch of tasks.
- `create_service` under a name the cluster already holds is modelled as a 500. That is the ECS rejection, not code in the repository.
- The read-increment-write race on desiredCount between concurrent requests is not modelled: the model is sequential.
- JSON encoding of response bodies is left out. The text of `str(e)` is stood in for by a fixed message per error kind.
- The fleet controller's calls to `get_ecs_cluster`, `get_target_group_arn` and `get_iam_role_arn` are not modelled, because the fetcher does not define them. The corrected controller takes the cluster as given and records the target group and role by name.
- Subnets are modelled as records with id, zone and tags, as the controller reads them. Yet `get_subnets` returns id strings (app/aws_resource_fetcher.py:72).
- The swapped `filter_by_tags` arguments at the call sites are noted in a comment. The selectors are modelled as if they passed the fetched tag list. As written, each selector that reaches the call hands in `self.tags`, a dict. Iterating it yields the key strings, and `'Application'['Key']` raises TypeError (app/aws_resource_fetcher.py:20-23).
- Router.LambdaHandlerAsWritten: the model assumes the module loaded. As written it does not: lines 16-17 of app/home/lambda_function.py call `get_dynamodb_table` and `get_subnets`, which reach the swapped `filter_by_tags` call and raise TypeError at import. No request reaches `lambda_handler`, not even for the 400 answer.
- Pipeline.CreateVectorStore: the modelled call never raises. In the source, embedding, `save_local`, `create_bucket`, both uploads and `put_item` can each raise (app/admin/admin.py:96-107). As written, the step raises no later than the index upload (see Findings). That path is modelled separately by Pipeline.InterruptedRun, with the raise point as an input. For a raise in the step of chunk j, the buckets and log record what happened before the raise point; the embedding and the local FAISS file are not modelled.
- Pipeline.ProcessPdf: this member, and Pipeline.RunCheckpointAt, Pipeline.ResumeKeepsPrefix, AdminMain.HandleUpload, AdminMain.HandleResume, AdminMain.LegacyUpload and AdminMain.LegacyFreshUploadProcessesAll, describe a run in which no call raises. `process_pdf` has no `try` (app/admin/admin.py:113-134), so a raise ends the run early. Pipeline.InterruptedRun, Pipeline.InterruptedRunLeavesPrefix and Pipeline.ResumeAfterInterruption state what such a run leaves and how the next run resumes from it. The Streamlit error page after the raise is not modelled.
- Checkpoint.FailedRequests: the model lists FAILED rows over a complete scan. `get_failed_requests` reads one scan page and never follows `LastEvaluatedKey` (app/admin/admin.py:138-145). A table larger than one page would show only the first page's FAILED rows. Checkpoint.FailedRequestsOfTable and AdminMain.RunLeavesResumeListAlone carry the same assumption.
- Checkpoint.FailedRequests: `Status` is a DynamoDB reserved word. The filter `Status = :status` has no `ExpressionAttributeNames` (app/admin/admin.py:140). The service would then reject the scan, and the resume listing would raise; this was not executed. The model assumes the scan is accepted.
- Fleet.CreateOrUpdateService: every 500 it answers leaves the cluster unchanged, because each modelled failure comes before the first change. The source has a 500 after a change. When `register_scalable_target` or `put_scaling_policy` raises after `create_service` succeeded (app/home/lambda_function.py:76-123), the `except` at line 146 answers 500, and the service stays with one task and no scaling policy. That partial creation is not modelled. The 500 after `update_service` raised the count, when `generate_unique_container_id` then raises at line 138, cannot occur in the corrected member, because it draws the id first.
- S3 `get_bucket_tagging` raising on an untagged bucket is left out.
- Fleet.GenerateUniqueContainerId: the source draws UUIDs forever until one is free. The model draws from a given finite sequence, and answers None when every draw is taken.
- Fleet.CreateOrUpdateAsWritten: the calls to the missing fetcher methods at lines 44, 90 and 106 are not modelled as failures. Line 44 would already raise before line 45.
- Router.ConsumerOfPath: only the shapes `/{role}/{after}` are covered. Other paths are not covered, because the handler routes no other shape.
- app/user/app.py, user/app.py and app/home/home.py (the question-answering UI and the login page) are not part of this model.

## Findings

| source | as written | input that shows it | evidently intended | confidence | as-written member | corrected member |
|---|---|---|---|---|---|---|
| app/home/lambda_function.py:61-64 | the environment list reads `container_id`, which is only assigned at line 138, so Python raises UnboundLocalError. Line 81 would then pass an undefined `environment_variables`. The `except` turns this into a 500 before any ECS call. In the code as a whole it is masked twice: the import-time TypeError of lines 16-17 (see Router.LambdaHandlerAsWritten under "Left out") and the missing `get_ecs_cluster` at line 44 | path `/admin/acme/chat` with region `us-east-1` on an empty cluster (Router.AdminRequestOnEmptyCluster) | draw the container id first, then create the service, or add a task, and answer 200 | not executed | Fleet.CreateOrUpdateAsWritten | Fleet.CreateOrUpdateService |
| app/admin/admin.py:99-105 | `save_local` writes `/vector_stores/{request_id}_{chunk_id}.faiss` and `.pkl`. `upload_file` reads `vs_{request_id}_{chunk_id}.faiss` and `.pkl` from the working directory, which no code writes, so the first upload raises if the step gets that far (the embedding, FAISS and `create_bucket` calls before it may raise first; not executed). Either way, no step writes a checkpoint row | any request with at least one chunk left: a run from resume point j raises at chunk j, no later than its index upload, and leaves the table as it was, and so does every later run (Pipeline.UploadReadsUnsavedFile, Pipeline.UploadAsWrittenNeverAdvances) | upload the two files `save_local` wrote, then save the PROCESSED row | not executed | Pipeline.InterruptedRun | Pipeline.CreateVectorStore |
| admin/admin.py:59-62 | the same mismatch in the older worker, which uploads into the shared bucket | as above, with the shared-bucket layout | as above | not executed | Pipeline.InterruptedRun | Pipeline.CreateVectorStore |

=== FILE: admin_main.dfy ===
/** The admin worker's entry points around the pipeline: the upload form of
    the per-request variant, its resume list, and the upload of the older
    shared-bucket variant. The PDF's chunks are an input (loading and
    splitting are opaque), and so is the random UUID of the older variant. */
module AdminMain {
  import opened Text
  import opened Checkpoint
  import opened Pipeline

  /** The PDF object the upload form stores: `{request_id}.pdf` in bucket
      `GPI-{request_id}`. */
  function PdfObject(requestId: string): ObjectRef {
    ObjectRef(BucketFor(PerRequestBucket, requestId), requestId + ".pdf")
  }

  /** `list_objects_v2(Bucket=GPI-{name}, Prefix={name}.pdf)` returns
      `Contents`: some object of that bucket has a key starting with the
      prefix. */
  predicate NameTaken(w: World, name: string) {
    exists o | o in w.objects :: o.bucket == BucketFor(PerRequestBucket, name) && StartsWith(o.key, name + ".pdf")
  }

  datatype UploadOutcome =
    | NoName                              // the name box is still empty
    | HasSpaces                           // "PDF name should not contain spaces."
    | AlreadyExists(bucket: string)       // the bucket already holds the PDF
    | Started(requestId: string, run: Run)

  /** The upload branch of `main` once a PDF is chosen: the typed name is the
      request id; a name with a space or one whose PDF is already in its
      bucket is refused; otherwise the PDF is uploaded and processed. */
  function HandleUpload(w: World, name: string, pdf: string, docs: seq<string>): (r: (World, UploadOutcome))
    ensures r.1 == NoName <==> name == ""
    ensures r.1 == HasSpaces <==> name != "" && ' ' in name
    ensures r.1.AlreadyExists? <==> name != "" && ' ' !in name && NameTaken(w, name)
    ensures !r.1.Started? ==> r.0 == w
    ensures r.1.Started? ==>
      var start := LastProcessedChunk(w.checkpoints, name) + 1;
      && r.1.requestId == name
      && PdfObject(name) in r.0.objects && r.0.objects[PdfObject(name)] == pdf
      && (forall i :: 0 <= i < |r.1.run.attempted| ==> r.1.run.attempted[i] == start + i)
      && start + |r.1.run.attempted| == Max(start, |docs|)
      && (forall i :: 0 <= i < |r.1.run.attempted| ==>
            Key(name, r.1.run.attempted[i]) in r.0.checkpoints &&
            r.0.checkpoints[Key(name, r.1.run.attempted[i])] == Processed)
  {
    if name == "" then (w, NoName)
    else if ' ' in name then (w, HasSpaces)
    else if NameTaken(w, name) then (w, AlreadyExists(BucketFor(PerRequestBucket, name)))
    else
      var pdfObj := PdfObject(name);
      var w1 := w.(objects := w.objects[pdfObj := pdf], log := w.log + [Upload(pdfObj)]);
      var run := ProcessPdf(PerRequestBucket, w1, name, docs);
      ProcessPdfKeepsPdf(w1, name, docs);
      assert forall i :: 0 <= i < |run.attempted| ==>
        Key(name, run.attempted[i]) in run.world.checkpoints &&
        run.world.checkpoints[Key(name, run.attempted[i])] == Processed by {
        forall i | 0 <= i < |run.attempted| {
          ProcessPdfCheckpointAt(PerRequestBucket, w1, name, docs, Key(name, run.attempted[i]));
        }
      }
      (run.world, Started(name, run))
  }

  /** No artifact key of a request starts with `{request_id}.pdf`: the prefix
      check of the upload form sees only the PDF itself, never a chunk
      artifact. Position by position, the key would have to repeat "vs_"
      every three characters and could never reach the '.'. */
  lemma {:induction false} ArtifactIsNotPdf(requestId: string, chunkId: nat, extension: string)
    ensures !StartsWith(ArtifactKey(requestId, chunkId, extension), requestId + ".pdf")
  {
    var key := ArtifactKey(requestId, chunkId, extension);
    var p := requestId + ".pdf";
    if StartsWith(key, p) {
      assert key == "vs_" + requestId + ("_" + NatToString(chunkId) + extension);
      NoDotBefore(requestId, key, p, |requestId|);
    }
  }

  lemma {:induction false} NoDotBefore(requestId: string, key: string, p: string, k: nat)
    requires p == requestId + ".pdf" && StartsWith(key, p)
    requires |key| >= |requestId| + 3 && key[..3] == "vs_" && key[3..|requestId| + 3] == requestId
    requires k <= |requestId|
    ensures key[k] != '.' && p[|requestId|] == '.'
    decreases k
  {
    if k < 3 {
      assert key[k] == "vs_"[k];
    } else {
      NoDotBefore(requestId, key, p, k - 3);
      assert key[k] == key[3..|requestId| + 3][k - 3] == requestId[k - 3];
      assert p[k - 3] == requestId[k - 3];
    }
  }

  /** The run of a request never overwrites the request's PDF. */
  lemma ProcessPdfKeepsPdf(w: World, name: string, docs: seq<string>)
    requires PdfObject(name) in w.objects
    ensures var r := ProcessPdf(PerRequestBucket, w, name, docs);
      PdfObject(name) in r.world.objects && r.world.objects[PdfObject(name)] == w.objects[PdfObject(name)]
  {
    var start := LastProcessedChunk(w.checkpoints, name) + 1;
    forall c: nat | c >= start
      ensures PdfObject(name) != IndexObject(PerRequestBucket, name, c)
      ensures PdfObject(name) != PickleObject(PerRequestBucket, name, c)
    {
      PdfIsNoArtifact(name, c);
    }
    RunKeepsObject(PerRequestBucket, w, name, docs, start, PdfObject(name));
  }

  /** The PDF of a request is neither artifact of any of its chunks. */
  lemma PdfIsNoArtifact(name: string, c: nat)
    ensures PdfObject(name) != IndexObject(PerRequestBucket, name, c)
    ensures PdfObject(name) != PickleObject(PerRequestBucket, name, c)
  {
  }

  /** Submitting the same name a second time, once the first upload went
      through, is refused: the PDF stays in its bucket. */
  lemma SecondUploadRefused(w: World, name: string, pdf: string, pdf': string, docs: seq<string>, docs': seq<string>)
    requires HandleUpload(w, name, pdf, docs).1.Started?
    ensures var w1 := HandleUpload(w, name, pdf, docs).0;
      HandleUpload(w1, name, pdf', docs').1 == AlreadyExists("GPI-" + name)
  {
  }

  /** The placeholder entry that heads the resume list. */
  const SelectPrompt: string := "Select an ID"

  /** The options of the resume selectbox: the placeholder, then
      `get_failed_requests()` over the current scan. */
  function ResumeChoices(scan: seq<Row>): (options: seq<string>)
    ensures |options| >= 1 && options[0] == SelectPrompt
    ensures forall x :: x in options[1..] <==>
      exists i :: 0 <= i < |scan| && scan[i].status == Failed && scan[i].requestId == x
  {
    [SelectPrompt] + FailedRequests(scan)
  }

  /** The resume branch of `main`: choosing anything but the placeholder
      runs the pipeline again for that request id. */
  function HandleResume(w: World, selected: string, docs: seq<string>): (r: (World, seq<nat>))
    ensures selected == SelectPrompt ==> r == (w, [])
    ensures selected != SelectPrompt ==>
      var start := LastProcessedChunk(w.checkpoints, selected) + 1;
      && (forall i :: 0 <= i < |r.1| ==> r.1[i] == start + i)
      && start + |r.1| == Max(start, |docs|)
      && (forall i :: 0 <= i < |r.1| ==>
            Key(selected, r.1[i]) in r.0.checkpoints && r.0.checkpoints[Key(selected, r.1[i])] == Processed)
  {
    if selected == SelectPrompt then (w, [])
    else
      var run := ProcessPdf(PerRequestBucket, w, selected, docs);
      assert forall i :: 0 <= i < |run.attempted| ==>
        Key(selected, run.attempted[i]) in run.world.checkpoints &&
        run.world.checkpoints[Key(selected, run.attempted[i])] == Processed by {
        forall i | 0 <= i < |run.attempted| {
          ProcessPdfCheckpointAt(PerRequestBucket, w, selected, docs, Key(selected, run.attempted[i]));
        }
      }
      (run.world, run.attempted)
  }

  /** A run never makes a request appear in, or disappear from, the resume
      list: the pipeline writes no FAILED row, so the list only ever shows
      requests that something else marked FAILED. */
  lemma RunLeavesResumeListAlone(layout: Layout, w: World, requestId: string, docs: seq<string>,
                                 scan: seq<Row>, scan': seq<Row>, x: string)
    requires ScanOf(w.checkpoints, scan)
    requires ScanOf(ProcessPdf(layout, w, requestId, docs).world.checkpoints, scan')
    ensures x in FailedRequests(scan') <==> x in FailedRequests(scan)
  {
    var t, t' := w.checkpoints, ProcessPdf(layout, w, requestId, docs).world.checkpoints;
    FailedRequestsOfTable(t, scan, x);
    FailedRequestsOfTable(t', scan', x);
    forall c: nat
      ensures (Key(x, c) in t' && t'[Key(x, c)] == Failed) <==> (Key(x, c) in t && t[Key(x, c)] == Failed)
    {
      ProcessPdfWritesNoFailed(layout, w, requestId, docs, Key(x, c));
    }
  }

  /** The older variant names each upload `admin_{uuid4}`. */
  function LegacyRequestId(uuid: string): (rid: string)
    ensures StartsWith(rid, "admin_")
    ensures rid[|"admin_"|..] == uuid
  {
    "admin_" + uuid
  }

  /** `main` of the older variant: with a PDF chosen, process it under a fresh
      `admin_` request id into the shared bucket; otherwise do nothing. */
  function LegacyUpload(w: World, uploaded: bool, uuid: string, docs: seq<string>): (r: (World, seq<nat>))
    ensures !uploaded ==> r == (w, [])
    ensures uploaded ==>
      var start := LastProcessedChunk(w.checkpoints, LegacyRequestId(uuid)) + 1;
      && (forall i :: 0 <= i < |r.1| ==> r.1[i] == start + i)
      && start + |r.1| == Max(start, |docs|)
      && (forall i :: 0 <= i < |r.1| ==>
            HasArtifacts(r.0, SharedBucket, LegacyRequestId(uuid), r.1[i], docs[r.1[i]]))
  {
    if !uploaded then (w, [])
    else
      var run := ProcessPdf(SharedBucket, w, LegacyRequestId(uuid), docs);
      assert forall i :: 0 <= i < |run.attempted| ==>
        HasArtifacts(run.world, SharedBucket, LegacyRequestId(uuid), run.attempted[i], docs[run.attempted[i]]) by {
        forall i | 0 <= i < |run.attempted| {
          ProcessPdfArtifactsAt(SharedBucket, w, LegacyRequestId(uuid), docs, i);
        }
      }
      (run.world, run.attempted)
  }

  /** A fresh UUID has no checkpoint rows, so every chunk is processed, from
      chunk 0 in order. */
  lemma LegacyFreshUploadProcessesAll(w: World, uuid: string, docs: seq<string>)
    requires forall k :: k in w.checkpoints ==> k.requestId != LegacyRequestId(uuid)
    ensures var r := LegacyUpload(w, true, uuid, docs);
      |r.1| == |docs| && forall i :: 0 <= i < |docs| ==> r.1[i] == i
  {
  }

  /** Uploads under two different UUIDs share the bucket without ever
      sharing an artifact key. */
  lemma LegacyUploadsNeverCollide(u1: string, c1: nat, u2: string, c2: nat)
    requires u1 != u2
    ensures IndexObject(SharedBucket, LegacyRequestId(u1), c1) != IndexObject(SharedBucket, LegacyRequestId(u2), c2)
    ensures PickleObject(SharedBucket, LegacyRequestId(u1), c1) != PickleObject(SharedBucket, LegacyRequestId(u2), c2)
    ensures IndexObject(SharedBucket, LegacyRequestId(u1), c1) != PickleObject(SharedBucket, LegacyRequestId(u2), c2)
  {
    var r1, r2 := LegacyRequestId(u1), LegacyRequestId(u2);
    assert r1 != r2 by {
      assert r1[|"admin_"|..] == u1 && r2[|"admin_"|..] == u2;
    }
    ArtifactKeyInjective(r1, c1, r2, c2, ".faiss");
    ArtifactKeyInjective(r1, c1, r2, c2, ".pkl");
    IndexAndPickleDiffer(r1, c1, r2, c2);
  }
}

=== FILE: checkpoint.dfy ===
/** The checkpoint table: one row per (RequestID, ChunkID), holding the
    processing status of that chunk. A put replaces any row with the same key,
    so the table is a map from key to status. */
module Checkpoint {

  /** The two statuses the code names: it writes 'PROCESSED' and lists
      'FAILED' rows, which something outside the code must write. */
  datatype Status = Processed | Failed

  datatype Key = Key(requestId: string, chunkId: nat)

  type Table = map<Key, Status>

  datatype Row = Row(requestId: string, chunkId: nat, status: Status)

  /** `save_checkpoint(request_id, chunk_id, status)`: the row for the key now
      holds `status`; every other row is untouched. */
  function SaveCheckpoint(t: Table, requestId: string, chunkId: nat, status: Status): (t': Table)
    ensures Key(requestId, chunkId) in t' && t'[Key(requestId, chunkId)] == status
    ensures t'.Keys == t.Keys + {Key(requestId, chunkId)}
    ensures forall k :: k in t && k != Key(requestId, chunkId) ==> t'[k] == t[k]
  {
    t[Key(requestId, chunkId) := status]
  }

  /** `SaveCheckpoint` seen from one key. */
  lemma SaveCheckpointAt(t: Table, requestId: string, chunkId: nat, status: Status, k: Key)
    ensures var t' := SaveCheckpoint(t, requestId, chunkId, status);
      && (k in t' <==> k in t || k == Key(requestId, chunkId))
      && (k == Key(requestId, chunkId) ==> t'[k] == status)
      && (k != Key(requestId, chunkId) && k in t ==> t'[k] == t[k])
  {
  }

  /** Chunk ids that have a row for this request, whatever their status. */
  function ChunksOf(t: Table, requestId: string): (cs: set<nat>)
    ensures forall c: nat :: c in cs <==> Key(requestId, c) in t
    ensures forall k :: k in t && k.requestId == requestId ==> k.chunkId in cs
  {
    set k | k in t && k.requestId == requestId :: k.chunkId
  }

  predicate IsMax(m: nat, s: set<nat>) {
    m in s && forall x :: x in s ==> x <= m
  }

  /** Every non-empty finite set of chunk ids has a largest member. */
  lemma {:induction false} MaxExists(s: set<nat>)
    requires s != {}
    ensures exists m :: IsMax(m, s)
  {
    var y :| y in s;
    if s == {y} {
      assert IsMax(y, s);
    } else {
      var rest := s - {y};
      MaxExists(rest);
      var m :| IsMax(m, rest);
      var big := if y > m then y else m;
      forall x | x in s
        ensures x <= big
      {
        if x != y {
          assert x in rest;
        }
      }
      assert IsMax(big, s);
    }
  }

  /** The largest chunk id in a non-empty set. */
  function MaxChunk(s: set<nat>): (m: nat)
    requires s != {}
    ensures m in s && forall x :: x in s ==> x <= m
  {
    MaxExists(s);
    var m :| IsMax(m, s);
    m
  }

  /** The query of `get_last_processed_chunk`: the request's rows in
      descending ChunkID order (the table's sort key), limited to one. */
  function QueryLatest(t: Table, requestId: string): (items: seq<Row>)
    ensures |items| <= 1
    ensures |items| == 0 <==> ChunksOf(t, requestId) == {}
    ensures |items| == 1 ==>
      var row := items[0];
      && row.requestId == requestId
      && Key(requestId, row.chunkId) in t
      && t[Key(requestId, row.chunkId)] == row.status
      && forall k :: k in t && k.requestId == requestId ==> k.chunkId <= row.chunkId
  {
    var cs := ChunksOf(t, requestId);
    if cs == {} then []
    else
      var m := MaxChunk(cs);
      [Row(requestId, m, t[Key(requestId, m)])]
  }

  /** `get_last_processed_chunk(request_id)`: -1 when the request has no rows,
      otherwise the ChunkID of the first row of the descending query. The
      row's status is never looked at. */
  function LastProcessedChunk(t: Table, requestId: string): (last: int)
    ensures last >= -1
    ensures last == -1 <==> ChunksOf(t, requestId) == {}
    ensures last >= 0 ==> Key(requestId, last) in t
    ensures forall k :: k in t && k.requestId == requestId ==> k.chunkId <= last
  {
    var items := QueryLatest(t, requestId);
    if |items| > 0 then items[0].chunkId else -1
  }

  /** The result depends on which chunk ids have rows, not on their status:
      overwriting the status of an existing row never changes it. */
  lemma LastProcessedIgnoresStatus(t: Table, requestId: string, k: Key, status: Status)
    requires k in t
    ensures LastProcessedChunk(t[k := status], requestId) == LastProcessedChunk(t, requestId)
  {
  }

  /** `get_failed_requests`: the RequestID of every scanned row whose Status
      is FAILED, one entry per such row, in scan order. */
  function FailedRequests(scan: seq<Row>): (ids: seq<string>)
    ensures |ids| <= |scan|
    ensures forall x :: x in ids <==> exists i :: 0 <= i < |scan| && scan[i].status == Failed && scan[i].requestId == x
  {
    if |scan| == 0 then []
    else
      var init := scan[..|scan| - 1];
      var last := scan[|scan| - 1];
      var ids0 := FailedRequests(init);
      assert forall i :: 0 <= i < |init| ==> init[i] == scan[i];
      if last.status == Failed then ids0 + [last.requestId] else ids0
  }

  /** The listing distributes over concatenation of scans: order is kept and
      duplicates are not merged. */
  lemma {:induction false} FailedRequestsAppend(a: seq<Row>, b: seq<Row>)
    ensures FailedRequests(a + b) == FailedRequests(a) + FailedRequests(b)
    decreases |b|
  {
    if |b| > 0 {
      var b0 := b[..|b| - 1];
      assert (a + b)[..|a + b| - 1] == a + b0;
      FailedRequestsAppend(a, b0);
    } else {
      assert a + b == a;
    }
  }

  /** A scan lists every row of the table at least once, and nothing else,
      with the status the table holds. */
  ghost predicate ScanOf(t: Table, scan: seq<Row>) {
    && (forall i :: 0 <= i < |scan| ==>
          Key(scan[i].requestId, scan[i].chunkId) in t && t[Key(scan[i].requestId, scan[i].chunkId)] == scan[i].status)
    && (forall k :: k in t ==> exists i :: 0 <= i < |scan| && Key(scan[i].requestId, scan[i].chunkId) == k)
  }

  /** Over a full scan, a request is listed exactly when one of its rows holds
      FAILED. */
  lemma FailedRequestsOfTable(t: Table, scan: seq<Row>, requestId: string)
    requires ScanOf(t, scan)
    ensures requestId in FailedRequests(scan) <==>
      exists c: nat :: Key(requestId, c) in t && t[Key(requestId, c)] == Failed
  {
  }
}

=== FILE: common.dfy ===
/** Small shared datatypes: an optional value, used wherever the source
    returns `None` or reads a key that may be missing. */
module Common {

  datatype Option<+T> = None | Some(value: T) {

    /** The value, or `default` when there is none (Python's `d.get(k, default)`). */
    function GetOr(default: T): T {
      match this
      case Some(v) => v
      case None => default
    }
  }
}

=== FILE: fleet.dfy ===
/** The fleet controller of the routing function: `create_or_update_ecs_service`
    and `generate_unique_container_id`. The ECS cluster is a value: the ARNs
    `list_services` returns, in order, and the record of each service by name.
    The subnets come from the resource fetcher; the container-id candidates
    (successive `uuid4()` draws) and the ContainerInfo table are inputs. */
module Fleet {
  import opened Common
  import opened Text
  import opened Tags

  datatype Subnet = Subnet(subnetId: string, availabilityZone: Option<string>, tags: seq<Tag>)

  /** Target-tracking autoscaling as registered for a new service. */
  datatype ScalingPolicy = ScalingPolicy(
    roleName: string, minCapacity: nat, maxCapacity: nat, targetCpu: nat, scaleInCooldown: nat, scaleOutCooldown: nat)

  const CpuScaling: ScalingPolicy := ScalingPolicy("GPI-ECS-autoscaling-role", 1, 10, 50, 300, 300)

  /** The container environment handed to every task of a new service. */
  datatype Environment = Environment(consumerName: string, role: string, containerId: string, availabilityZone: string)

  /** What `create_service` records: task definition, desired count, the one
      subnet (None when no private subnet matched), tags, environment, the
      load balancer's target group and container, and the scaling policy. */
  datatype Service = Service(
    taskDefinition: string, desiredCount: nat, subnet: Option<string>, tags: seq<Tag>, environment: Environment,
    targetGroupName: string, containerName: string, containerPort: nat, scaling: ScalingPolicy)

  datatype Cluster = Cluster(name: string, arns: seq<string>, services: map<string, Service>)

  datatype Response = Response(statusCode: nat, body: string)

  /** The Python error a failed call reports in its body. */
  datatype Fault =
    | NoRegion               // `az` is None: `None.split('-')`
    | ServiceNotDescribed    // listed by suffix but `describe_services(...)['services']` is empty
    | ServiceNameInUse       // `create_service` under a name the cluster already holds
    | ContainerIdUnbound     // `container_id` is read at line 64, assigned at line 138

  function FaultText(f: Fault): string {
    match f
    case NoRegion => "'NoneType' object has no attribute 'split'"
    case ServiceNotDescribed => "list index out of range"
    case ServiceNameInUse => "Creation of service was not idempotent."
    case ContainerIdUnbound => "cannot access local variable 'container_id' where it is not associated with a value"
  }

  function Failure(f: Fault): (r: Response)
    ensures r.statusCode == 500
  {
    Response(500, "Failed to handle ECS service: " + FaultText(f))
  }

  /** The four tags a new service gets unless a subnet of its zone replaces
      them; the Name tag is `GPI-ECS-{consumer_name}`. */
  function CommonTags(consumer: string): (ts: seq<Tag>)
    ensures |ts| == 4 && TagValueOr(ts, "Name", "") == "GPI-ECS-" + consumer
  {
    var ts := [Tag("Application", "GPI-App"), Tag("Environment", "Development"), Tag("Owner", "Mohith"),
               Tag("Name", "GPI-ECS-" + consumer)];
    assert LastWithKey(ts, "Name", 3);
    ts
  }

  /** `{role}-service-{az.split('-')[-1]}`. */
  function ServiceName(role: string, az: string): string {
    role + "-service-" + LastField(az, '-')
  }

  /** The name is the role's prefix followed by a '-'-free tail of the zone. */
  lemma ServiceNameShape(role: string, az: string)
    ensures var name := ServiceName(role, az);
      StartsWith(name, role + "-service-") &&
      var suffix := name[|role + "-service-"|..]; EndsWith(az, suffix) && '-' !in suffix
  {
  }

  /** Only the last '-'-field of the zone reaches the name, so two zones with
      the same suffix map one role to the same service. */
  lemma ServiceNameKeepsOnlySuffix(role: string, az: string, az': string)
    ensures ServiceName(role, az) == ServiceName(role, az') <==> LastField(az, '-') == LastField(az', '-')
  {
    if ServiceName(role, az) == ServiceName(role, az') {
      var prefix := role + "-service-";
      assert LastField(az, '-') == ServiceName(role, az)[|prefix|..];
      assert LastField(az', '-') == ServiceName(role, az')[|prefix|..];
    }
  }

  /** A subnet whose Name tag matches `GPI-private-subnet` at its start. */
  predicate IsPrivate(s: Subnet) {
    StartsWith(TagValueOr(s.tags, "Name", ""), "GPI-private-subnet")
  }

  predicate InZone(s: Subnet, az: string) {
    s.availabilityZone == Some(az)
  }

  /** Index `i` is the last subnet of the zone (`private` also asks that it
      be private). */
  ghost predicate LastOfZone(ss: seq<Subnet>, az: string, private: bool, i: int) {
    && 0 <= i < |ss| && InZone(ss[i], az) && (private ==> IsPrivate(ss[i]))
    && forall j :: i < j < |ss| ==> !(InZone(ss[j], az) && (private ==> IsPrivate(ss[j])))
  }

  datatype Placement = Placement(subnet: Option<string>, tags: seq<Tag>)

  /** The subnet loop: it never breaks, so every subnet of the zone overwrites
      `tags`, and every private one of the zone overwrites `subnet_id`. */
  function ScanSubnets(ss: seq<Subnet>, az: string, consumer: string): Placement
  {
    if |ss| == 0 then Placement(None, CommonTags(consumer))
    else
      var p := ScanSubnets(ss[..|ss| - 1], az, consumer);
      var s := ss[|ss| - 1];
      if !InZone(s, az) then p
      else Placement(if IsPrivate(s) then Some(s.subnetId) else p.subnet, s.tags)
  }

  /** The subnet chosen is the LAST private subnet of the zone (None when
      there is none); the tags are those of the LAST subnet of the zone,
      private or not, and the common tags only when the zone has no subnet. */
  lemma {:induction false} ScanSubnetsMeaning(ss: seq<Subnet>, az: string, consumer: string)
    ensures var p := ScanSubnets(ss, az, consumer);
      && (p.subnet.Some? <==> exists i :: LastOfZone(ss, az, true, i))
      && (forall i :: LastOfZone(ss, az, true, i) ==> p.subnet == Some(ss[i].subnetId))
      && ((exists i :: LastOfZone(ss, az, false, i)) || p.tags == CommonTags(consumer))
      && (forall i :: LastOfZone(ss, az, false, i) ==> p.tags == ss[i].tags)
  {
    if |ss| > 0 {
      var n := |ss| - 1;
      var init := ss[..n];
      ScanSubnetsMeaning(init, az, consumer);
      LastOfZoneStep(ss, az, true);
      LastOfZoneStep(ss, az, false);
    }
  }

  /** How `LastOfZone` changes when one subnet is appended. */
  lemma LastOfZoneStep(ss: seq<Subnet>, az: string, private: bool)
    requires |ss| > 0
    ensures var n := |ss| - 1; var hit := InZone(ss[n], az) && (private ==> IsPrivate(ss[n]));
      && (hit ==> LastOfZone(ss, az, private, n) && forall i :: LastOfZone(ss, az, private, i) ==> i == n)
      && (!hit ==> forall i :: LastOfZone(ss, az, private, i) <==> LastOfZone(ss[..n], az, private, i))
  {
  }

  /** `any(service.endswith(name) for service in serviceArns)`. */
  predicate ServiceListed(arns: seq<string>, name: string) {
    exists i | 0 <= i < |arns| :: EndsWith(arns[i], name)
  }

  /** `list_services(cluster=..., maxResults=100)`: one page, at most 100
      ARNs. */
  function ListServices(c: Cluster): (page: seq<string>)
    ensures |page| == if |c.arns| <= 100 then |c.arns| else 100
    ensures page == c.arns[..|page|]
  {
    if |c.arns| <= 100 then c.arns else c.arns[..100]
  }

  function ServiceArn(cluster: string, name: string): (arn: string)
    ensures EndsWith(arn, name)
  {
    "service/" + cluster + "/" + name
  }

  /** Every service of the cluster is listed by its ARN. */
  ghost predicate ArnsCover(c: Cluster) {
    forall name :: name in c.services ==> ServiceArn(c.name, name) in c.arns
  }

  function HandledMessage(role: string, consumer: string, containerId: string): string {
    "ECS service handled for " + role + ": " + consumer + ", Container ID: " + containerId
  }

  /** `create_or_update_ecs_service` with the container id drawn before the
      environment that uses it, and the cluster at hand. With no region it
      fails; a service whose name no listed ARN ends with is created with one
      task, the role's target group, port 8501 and the CPU scaling policy; a
      listed one is scaled up by one task; a listed name the cluster cannot
      describe fails. */
  function CreateOrUpdateService(c: Cluster, subnets: seq<Subnet>, consumer: string, role: string, image: string,
                                 az: Option<string>, containerId: string): (r: (Cluster, Response))
    ensures r.1.statusCode == 200 || r.1.statusCode == 500
    ensures r.1.statusCode == 500 ==> r.0 == c
    ensures az.None? ==> r.1 == Failure(NoRegion)
    ensures az.Some? ==>
      var name := ServiceName(role, az.value);
      && r.0.name == c.name
      && r.0.services.Keys == c.services.Keys + (if r.1.statusCode == 200 then {name} else {})
      && (forall n :: n in c.services && n != name ==> r.0.services[n] == c.services[n])
      && (r.1.statusCode == 200 <==>
            (!ServiceListed(ListServices(c), name) && name !in c.services) ||
            (ServiceListed(ListServices(c), name) && name in c.services))
      && (r.1.statusCode == 200 ==> r.1.body == HandledMessage(role, consumer, containerId))
      && (r.1.statusCode == 200 && name in c.services ==>
            r.0.services[name] == c.services[name].(desiredCount := c.services[name].desiredCount + 1))
      && (r.1.statusCode == 200 && name in c.services ==> r.0.arns == c.arns)
      && (r.1.statusCode == 200 && name !in c.services ==>
            var p := ScanSubnets(subnets, az.value, consumer);
            var s := r.0.services[name];
            && s.desiredCount == 1 && s.taskDefinition == image
            && s.subnet == p.subnet && s.tags == p.tags
            && s.environment == Environment(consumer, role, containerId, az.value)
            && s.targetGroupName == "GPI-target-group-" + role
            && s.containerName == consumer && s.containerPort == 8501
            && s.scaling == CpuScaling
            && r.0.arns == c.arns + [ServiceArn(c.name, name)])
  {
    if az.None? then (c, Failure(NoRegion))
    else
      var name := ServiceName(role, az.value);
      var p := ScanSubnets(subnets, az.value, consumer);
      var env := Environment(consumer, role, containerId, az.value);
      var ok := Response(200, HandledMessage(role, consumer, containerId));
      if !ServiceListed(ListServices(c), name) then
        if name in c.services then (c, Failure(ServiceNameInUse))
        else
          var s := Service(image, 1, p.subnet, p.tags, env, "GPI-target-group-" + role, consumer, 8501, CpuScaling);
          (c.(arns := c.arns + [ServiceArn(c.name, name)], services := c.services[name := s]), ok)
      else if name !in c.services then (c, Failure(ServiceNotDescribed))
      else
        var s := c.services[name];
        (c.(services := c.services[name := s.(desiredCount := s.desiredCount + 1)]), ok)
  }

  /** Every call keeps each service listed by its ARN. */
  lemma CreateOrUpdateKeepsArnsCover(c: Cluster, subnets: seq<Subnet>, consumer: string, role: string, image: string,
                                     az: Option<string>, containerId: string)
    requires ArnsCover(c)
    ensures ArnsCover(CreateOrUpdateService(c, subnets, consumer, role, image, az, containerId).0)
  {
  }

  /** The first request for a role in a zone creates its service with one
      task; the next request for the same role and zone adds a second task,
      as long as the listing still shows the new ARN on its first page. */
  lemma CreateThenScale(c: Cluster, subnets: seq<Subnet>, consumer: string, consumer': string, role: string,
                        image: string, az: string, id: string, id': string)
    requires ServiceName(role, az) !in c.services
    requires !ServiceListed(ListServices(c), ServiceName(role, az))
    requires |c.arns| < 100
    ensures var c1 := CreateOrUpdateService(c, subnets, consumer, role, image, Some(az), id);
      var c2 := CreateOrUpdateService(c1.0, subnets, consumer', role, image, Some(az), id');
      && c1.1.statusCode == 200 && c2.1.statusCode == 200
      && c1.0.services[ServiceName(role, az)].desiredCount == 1
      && c2.0.services[ServiceName(role, az)].desiredCount == 2
  {
    var name := ServiceName(role, az);
    var c1 := CreateOrUpdateService(c, subnets, consumer, role, image, Some(az), id).0;
    assert ListServices(c1) == c1.arns;
    assert EndsWith(c1.arns[|c.arns|], name);
  }

  /** Scaling up is not capped: the policy's maximum of 10 tasks binds only
      the autoscaler, and each further request adds a task past it. */
  lemma ScaleUpIgnoresMaxCapacity(c: Cluster, subnets: seq<Subnet>, consumer: string, role: string, image: string,
                                  az: string, id: string)
    requires ServiceName(role, az) in c.services && ServiceListed(ListServices(c), ServiceName(role, az))
    requires c.services[ServiceName(role, az)].desiredCount >= CpuScaling.maxCapacity
    ensures var r := CreateOrUpdateService(c, subnets, consumer, role, image, Some(az), id);
      r.0.services[ServiceName(role, az)].desiredCount > CpuScaling.maxCapacity
  {
  }

  /** A service whose ARN sits past the first page of 100 is not seen as
      running: the call tries to create it again and fails. */
  lemma HiddenServiceIsRecreated(c: Cluster, subnets: seq<Subnet>, consumer: string, role: string, image: string,
                                 az: string, id: string)
    requires ServiceName(role, az) in c.services
    requires forall i :: 0 <= i < |c.arns| && EndsWith(c.arns[i], ServiceName(role, az)) ==> i >= 100
    ensures CreateOrUpdateService(c, subnets, consumer, role, image, Some(az), id).1 == Failure(ServiceNameInUse)
  {
  }

  /** `create_or_update_ecs_service` as written. Line 45 splits the region,
      which fails when it is None; otherwise line 64 reads `container_id`,
      which only line 138 assigns, so Python raises before any call to the
      cluster (and line 81's undefined `environment_variables` would follow).
      Either error is caught, so every call answers 500 and changes nothing. */
  function CreateOrUpdateAsWritten(c: Cluster, subnets: seq<Subnet>, consumer: string, role: string, image: string,
                                   az: Option<string>): (r: (Cluster, Response))
    ensures r.0 == c && r.1.statusCode == 500
    ensures az.None? ==> r.1 == Failure(NoRegion)
    ensures az.Some? ==> r.1 == Failure(ContainerIdUnbound)
  {
    if az.None? then (c, Failure(NoRegion))
    else (c, Failure(ContainerIdUnbound))
  }

  /** With a region known, the code as written fails where the corrected
      controller succeeds: on an empty cluster it creates the service. */
  lemma AsWrittenNeverCreates(cluster: string, subnets: seq<Subnet>, consumer: string, role: string, image: string,
                              az: string, id: string)
    ensures var c := Cluster(cluster, [], map[]);
      && CreateOrUpdateAsWritten(c, subnets, consumer, role, image, Some(az)).1.statusCode == 500
      && CreateOrUpdateService(c, subnets, consumer, role, image, Some(az), id).1.statusCode == 200
  {
  }

  /** `generate_unique_container_id`: draw `uuid4()` values until one is not
      a key of the ContainerInfo table. The draws are given as `candidates`;
      None means all of them were taken. */
  method GenerateUniqueContainerId(candidates: seq<string>, taken: set<string>) returns (id: Option<string>)
    ensures id.Some? ==>
      && id.value !in taken
      && exists i :: 0 <= i < |candidates| && candidates[i] == id.value && forall j :: 0 <= j < i ==> candidates[j] in taken
    ensures id.None? <==> forall i :: 0 <= i < |candidates| ==> candidates[i] in taken
  {
    var i := 0;
    while i < |candidates|
      invariant 0 <= i <= |candidates|
      invariant forall j :: 0 <= j < i ==> candidates[j] in taken
    {
      if candidates[i] !in taken {
        return Some(candidates[i]);
      }
      i := i + 1;
    }
    return None;
  }
}

=== FILE: pipeline.dfy ===
/** The resumable chunk pipeline of the admin worker: `create_vector_store`
    and the `process_pdf` loop. Loading the PDF, splitting it into chunks,
    computing embeddings and building the FAISS index are opaque: the chunk
    sequence is an input, and an uploaded artifact is represented by the text
    of the chunk it was built from. */
module Pipeline {
  import opened Text
  import opened Checkpoint

  /** The two variants of the worker differ in where artifacts go:
      `PerRequestBucket` (app/admin) creates and uses bucket "GPI-<request id>";
      `SharedBucket` (the older admin/) uploads into one fixed bucket. */
  datatype Layout = PerRequestBucket | SharedBucket

  const SharedBucketName: string := "gen-ai-pdf-interaction"

  function BucketFor(layout: Layout, requestId: string): string {
    match layout
    case PerRequestBucket => "GPI-" + requestId
    case SharedBucket => SharedBucketName
  }

  function ArtifactKey(requestId: string, chunkId: nat, extension: string): string {
    "vs_" + requestId + "_" + NatToString(chunkId) + extension
  }

  /** Key of the FAISS index of one chunk: `vs_{request_id}_{chunk_id}.faiss`. */
  function IndexKey(requestId: string, chunkId: nat): string {
    ArtifactKey(requestId, chunkId, ".faiss")
  }

  /** Key of the pickled docstore of one chunk: `vs_{request_id}_{chunk_id}.pkl`. */
  function PickleKey(requestId: string, chunkId: nat): string {
    ArtifactKey(requestId, chunkId, ".pkl")
  }

  /** The folder `process_pdf` hands to `create_vector_store`. */
  const LocalFolder: string := "/vector_stores/"

  /** The file `save_local(index_name=f"{request_id}_{chunk_id}", folder_path=folder)`
      writes for one extension. */
  function SavedFile(folder: string, requestId: string, chunkId: nat, extension: string): string {
    folder + requestId + "_" + NatToString(chunkId) + extension
  }

  /** As written, `upload_file` reads `vs_{request_id}_{chunk_id}` plus the
      extension from the working directory `cwd`. That is never the file
      `save_local` wrote under the local folder, whatever `cwd` is: where the
      lengths agree, the uploaded name has '_' at the place where the saved
      path ends its folder with '/'. */
  lemma UploadReadsUnsavedFile(cwd: string, requestId: string, chunkId: nat, extension: string)
    ensures cwd + ArtifactKey(requestId, chunkId, extension) != SavedFile(LocalFolder, requestId, chunkId, extension)
  {
    var x := requestId + "_" + NatToString(chunkId) + extension;
    var read, saved := cwd + ArtifactKey(requestId, chunkId, extension), SavedFile(LocalFolder, requestId, chunkId, extension);
    assert read == cwd + "vs_" + x;
    assert saved == LocalFolder + x;
    if |read| == |saved| {
      assert read[|cwd| + 2] == '_';
      assert saved[|cwd| + 2] == '/';
    }
  }

  /** Artifact keys never collide: the request id runs up to the LAST '_'
      (a decimal chunk id holds none), and decimal rendering is injective. So
      two chunks of one request, or of two requests sharing a bucket, always
      get distinct keys. */
  lemma ArtifactKeyInjective(r1: string, c1: nat, r2: string, c2: nat, extension: string)
    requires '_' !in extension
    ensures ArtifactKey(r1, c1, extension) == ArtifactKey(r2, c2, extension) <==> r1 == r2 && c1 == c2
  {
    if ArtifactKey(r1, c1, extension) == ArtifactKey(r2, c2, extension) {
      var d1, d2 := NatToString(c1), NatToString(c2);
      var u1, u2 := r1 + "_" + d1, r2 + "_" + d2;
      assert "vs_" + u1 + extension == ArtifactKey(r1, c1, extension);
      assert "vs_" + u2 + extension == ArtifactKey(r2, c2, extension);
      assert u1 == ("vs_" + u1 + extension)[3..|u1| + 3];
      assert u2 == ("vs_" + u2 + extension)[3..|u2| + 3];
      assert '_' !in d1 && '_' !in d2 by {
        assert forall i :: 0 <= i < |d1| ==> IsDigit(d1[i]);
        assert forall i :: 0 <= i < |d2| ==> IsDigit(d2[i]);
      }
      LastSeparatorDetermines(r1, d1, r2, d2, '_');
      NatToStringInjective(c1, c2);
    }
  }

  /** The index and the pickle of a chunk are two different objects. */
  lemma IndexAndPickleDiffer(r1: string, c1: nat, r2: string, c2: nat)
    ensures IndexKey(r1, c1) != PickleKey(r2, c2)
  {
    var a, b := IndexKey(r1, c1), PickleKey(r2, c2);
    assert a[|a| - 1] == 's' && b[|b| - 1] == 'l';
  }

  datatype ObjectRef = ObjectRef(bucket: string, key: string)

  /** What the worker does to the outside world, in order. */
  datatype Event = CreateBucket(bucket: string) | Upload(obj: ObjectRef) | PutCheckpoint(row: Row)

  /** The durable state the pipeline touches: the checkpoint table, the
      buckets and objects of the object store, and the log of calls made. */
  datatype World = World(checkpoints: Table, buckets: set<string>, objects: map<ObjectRef, string>, log: seq<Event>)

  function IndexObject(layout: Layout, requestId: string, chunkId: nat): ObjectRef {
    ObjectRef(BucketFor(layout, requestId), IndexKey(requestId, chunkId))
  }

  function PickleObject(layout: Layout, requestId: string, chunkId: nat): ObjectRef {
    ObjectRef(BucketFor(layout, requestId), PickleKey(requestId, chunkId))
  }

  /** The chunk's artifacts are stored, and built from `chunk`. */
  ghost predicate HasArtifacts(w: World, layout: Layout, requestId: string, chunkId: nat, chunk: string) {
    && IndexObject(layout, requestId, chunkId) in w.objects
    && w.objects[IndexObject(layout, requestId, chunkId)] == chunk
    && PickleObject(layout, requestId, chunkId) in w.objects
    && w.objects[PickleObject(layout, requestId, chunkId)] == chunk
  }

  /** `create_vector_store(request_id, chunk_id, document, ...)`: upload the
      chunk's index and pickle, then record the chunk as PROCESSED. It always
      reports success. */
  function CreateVectorStore(layout: Layout, w: World, requestId: string, chunkId: nat, chunk: string): (r: (World, bool))
    ensures r.1
    // its only checkpoint write records this chunk as PROCESSED
    ensures r.0.checkpoints == SaveCheckpoint(w.checkpoints, requestId, chunkId, Processed)
  {
    var bucket := BucketFor(layout, requestId);
    var index := IndexObject(layout, requestId, chunkId);
    var pickle := PickleObject(layout, requestId, chunkId);
    var created := if layout == PerRequestBucket then [CreateBucket(bucket)] else [];
    var calls := [Upload(index), Upload(pickle), PutCheckpoint(Row(requestId, chunkId, Processed))];
    var log := w.log + created + calls;
    var w' := World(
      SaveCheckpoint(w.checkpoints, requestId, chunkId, Processed),
      if layout == PerRequestBucket then w.buckets + {bucket} else w.buckets,
      w.objects[index := chunk][pickle := chunk],
      log);
    (w', true)
  }

  /** `create_vector_store` stores the chunk's two artifacts, built from the
      chunk, and writes no other object. */
  lemma CreateVectorStoreObjects(layout: Layout, w: World, requestId: string, chunkId: nat, chunk: string, o: ObjectRef)
    ensures var w' := CreateVectorStore(layout, w, requestId, chunkId, chunk).0;
      var index, pickle := IndexObject(layout, requestId, chunkId), PickleObject(layout, requestId, chunkId);
      && HasArtifacts(w', layout, requestId, chunkId, chunk)
      && (o in w'.objects <==> o in w.objects || o == index || o == pickle)
      && (o in w.objects && o != index && o != pickle ==> w'.objects[o] == w.objects[o])
  {
  }

  /** The calls `create_vector_store` makes, in order: the bucket creation
      (per-request layout only), the index upload, the pickle upload, and
      only then the PROCESSED checkpoint. */
  lemma CreateVectorStoreLog(layout: Layout, w: World, requestId: string, chunkId: nat, chunk: string)
    ensures var log := CreateVectorStore(layout, w, requestId, chunkId, chunk).0.log;
      var calls := [Upload(IndexObject(layout, requestId, chunkId)), Upload(PickleObject(layout, requestId, chunkId)),
                    PutCheckpoint(Row(requestId, chunkId, Processed))];
      && (layout == PerRequestBucket ==> log == w.log + [CreateBucket(BucketFor(layout, requestId))] + calls)
      && (layout == SharedBucket ==> log == w.log + calls)
  {
  }

  /** Processing a chunk a second time (a retry after a crash between upload
      and checkpoint) leaves the table and the object store exactly as one
      pass does: every write overwrites by key. */
  lemma CreateVectorStoreIdempotent(layout: Layout, w: World, requestId: string, chunkId: nat, chunk: string)
    ensures var once := CreateVectorStore(layout, w, requestId, chunkId, chunk).0;
      var twice := CreateVectorStore(layout, once, requestId, chunkId, chunk).0;
      && twice.checkpoints == once.checkpoints
      && twice.buckets == once.buckets
      && twice.objects == once.objects
  {
  }

  /** A per-chunk transform: takes the world, request id, chunk id and chunk
      text, and returns the new world and the (truthy or falsy) result. */
  type Transform = (World, string, nat, string) -> (World, bool)

  /** Outcome of the loop: final world, the chunk ids handed to the transform
      in order, and whether a falsy result ended the loop early. */
  datatype Run = Run(world: World, attempted: seq<nat>, stopped: bool)

  /** `for chunk_id in range(from, len(documents))`: call the transform on
      each chunk in turn and `break` on the first falsy result. */
  function RunChunks(transform: Transform, w: World, requestId: string, docs: seq<string>, from: nat): (r: Run)
    ensures forall i :: 0 <= i < |r.attempted| ==> r.attempted[i] == from + i
    ensures from >= |docs| ==> r.attempted == [] && !r.stopped
    ensures from < |docs| ==> from + |r.attempted| <= |docs|
    ensures !r.stopped && from < |docs| ==> from + |r.attempted| == |docs|
    ensures r.stopped ==> |r.attempted| > 0
    decreases |docs| - from
  {
    if from >= |docs| then Run(w, [], false)
    else
      var (w1, ok) := transform(w, requestId, from, docs[from]);
      if !ok then Run(w1, [from], true)
      else
        var rest := RunChunks(transform, w1, requestId, docs, from + 1);
        Run(rest.world, [from] + rest.attempted, rest.stopped)
  }

  /** A falsy result at chunk `from` ends the loop there: no later chunk is
      handed to the transform. A truthy one moves on to `from + 1`. */
  lemma RunStopsAtFalsy(transform: Transform, w: World, requestId: string, docs: seq<string>, from: nat)
    requires from < |docs|
    ensures var (w1, ok) := transform(w, requestId, from, docs[from]);
      var r := RunChunks(transform, w, requestId, docs, from);
      && (!ok ==> r.attempted == [from] && r.stopped)
      && (ok ==> r.attempted == [from] + RunChunks(transform, w1, requestId, docs, from + 1).attempted)
  {
  }

  /** A transform that never returns a falsy result never stops the loop. */
  lemma {:induction false} NeverFalsyNeverStops(transform: Transform, w: World, requestId: string, docs: seq<string>, from: nat)
    requires forall w0, r0, c0, d0 :: transform(w0, r0, c0, d0).1
    ensures !RunChunks(transform, w, requestId, docs, from).stopped
    decreases |docs| - from
  {
    if from < |docs| {
      var w1 := transform(w, requestId, from, docs[from]).0;
      NeverFalsyNeverStops(transform, w1, requestId, docs, from + 1);
    }
  }

  function VectorStoreStep(layout: Layout): Transform {
    (w: World, requestId: string, chunkId: nat, chunk: string) => CreateVectorStore(layout, w, requestId, chunkId, chunk)
  }

  /** The request's keys the loop writes: chunk ids in `[from, to)`. */
  ghost predicate Written(k: Key, requestId: string, from: nat, to: int) {
    k.requestId == requestId && from <= k.chunkId < to
  }

  /** One turn of the real loop: chunk `from` goes through
      `create_vector_store`, which is truthy, and the loop carries on. */
  lemma RunStep(layout: Layout, w: World, requestId: string, docs: seq<string>, from: nat)
    requires from < |docs|
    ensures var w1 := CreateVectorStore(layout, w, requestId, from, docs[from]).0;
      var rest := RunChunks(VectorStoreStep(layout), w1, requestId, docs, from + 1);
      RunChunks(VectorStoreStep(layout), w, requestId, docs, from) == Run(rest.world, [from] + rest.attempted, rest.stopped)
  {
  }

  /** `create_vector_store` always returns True, so the real loop never
      breaks early. */
  lemma VectorStoreRunNeverStops(layout: Layout, w: World, requestId: string, docs: seq<string>, from: nat)
    ensures !RunChunks(VectorStoreStep(layout), w, requestId, docs, from).stopped
  {
    forall w0: World, r0: string, c0: nat, d0: string
      ensures VectorStoreStep(layout)(w0, r0, c0, d0).1
    {
      assert VectorStoreStep(layout)(w0, r0, c0, d0) == CreateVectorStore(layout, w0, r0, c0, d0);
    }
    NeverFalsyNeverStops(VectorStoreStep(layout), w, requestId, docs, from);
  }

  /** Effect of the real loop on one checkpoint key: since the loop never
      breaks, every chunk from `from` to the end gains a PROCESSED row, and
      any other row is left as it was. */
  lemma {:induction false} RunCheckpointAt(layout: Layout, w: World, requestId: string, docs: seq<string>, from: nat, k: Key)
    ensures var t' := RunChunks(VectorStoreStep(layout), w, requestId, docs, from).world.checkpoints;
      && (k in t' <==> k in w.checkpoints || Written(k, requestId, from, |docs|))
      && (Written(k, requestId, from, |docs|) ==> t'[k] == Processed)
      && (k in w.checkpoints && !Written(k, requestId, from, |docs|) ==> t'[k] == w.checkpoints[k])
    decreases |docs| - from
  {
    if from < |docs| {
      var w1 := CreateVectorStore(layout, w, requestId, from, docs[from]).0;
      RunStep(layout, w, requestId, docs, from);
      RunCheckpointAt(layout, w1, requestId, docs, from + 1, k);
      SaveCheckpointAt(w.checkpoints, requestId, from, Processed, k);
      if k == Key(requestId, from) {
        assert !Written(k, requestId, from + 1, |docs|);
      } else {
        assert Written(k, requestId, from, |docs|) <==> Written(k, requestId, from + 1, |docs|);
      }
    }
  }

  /** Effect of the real loop on the object store at chunk `c`: every
      attempted chunk has its two artifacts, built from that chunk. */
  lemma {:induction false} RunArtifactsAt(layout: Layout, w: World, requestId: string, docs: seq<string>, from: nat, c: nat)
    ensures var r := RunChunks(VectorStoreStep(layout), w, requestId, docs, from);
      from <= c < from + |r.attempted| ==> HasArtifacts(r.world, layout, requestId, c, docs[c])
    decreases |docs| - from
  {
    if from < |docs| {
      var w1 := CreateVectorStore(layout, w, requestId, from, docs[from]).0;
      RunStep(layout, w, requestId, docs, from);
      if c == from {
        CreateVectorStoreObjects(layout, w, requestId, from, docs[from], IndexObject(layout, requestId, from));
        OwnArtifactsNotAbove(layout, requestId, from);
        RunKeepsObject(layout, w1, requestId, docs, from + 1, IndexObject(layout, requestId, from));
        RunKeepsObject(layout, w1, requestId, docs, from + 1, PickleObject(layout, requestId, from));
      } else {
        RunArtifactsAt(layout, w1, requestId, docs, from + 1, c);
      }
    }
  }

  /** The real loop leaves alone every object that is not an artifact of a
      chunk numbered `from` or above. */
  lemma {:induction false} RunKeepsObject(layout: Layout, w: World, requestId: string, docs: seq<string>, from: nat, o: ObjectRef)
    requires o in w.objects && !IsArtifactAbove(o, layout, requestId, from)
    ensures var r := RunChunks(VectorStoreStep(layout), w, requestId, docs, from);
      o in r.world.objects && r.world.objects[o] == w.objects[o]
    decreases |docs| - from
  {
    if from < |docs| {
      var w1 := CreateVectorStore(layout, w, requestId, from, docs[from]).0;
      RunStep(layout, w, requestId, docs, from);
      assert o != IndexObject(layout, requestId, from) && o != PickleObject(layout, requestId, from);
      CreateVectorStoreObjects(layout, w, requestId, from, docs[from], o);
      assert !IsArtifactAbove(o, layout, requestId, from + 1);
      RunKeepsObject(layout, w1, requestId, docs, from + 1, o);
    }
  }

  /** `o` is an artifact of a chunk numbered `from` or above. */
  ghost predicate IsArtifactAbove(o: ObjectRef, layout: Layout, requestId: string, from: nat) {
    exists c: nat :: c >= from && (o == IndexObject(layout, requestId, c) || o == PickleObject(layout, requestId, c))
  }

  /** The artifacts of chunk `c` are artifacts of no later chunk. */
  lemma OwnArtifactsNotAbove(layout: Layout, requestId: string, c: nat)
    ensures !IsArtifactAbove(IndexObject(layout, requestId, c), layout, requestId, c + 1)
    ensures !IsArtifactAbove(PickleObject(layout, requestId, c), layout, requestId, c + 1)
  {
    forall c': nat | c' >= c + 1
      ensures IndexObject(layout, requestId, c) != IndexObject(layout, requestId, c')
      ensures IndexObject(layout, requestId, c) != PickleObject(layout, requestId, c')
      ensures PickleObject(layout, requestId, c) != IndexObject(layout, requestId, c')
      ensures PickleObject(layout, requestId, c) != PickleObject(layout, requestId, c')
    {
      ArtifactKeyInjective(requestId, c, requestId, c', ".faiss");
      ArtifactKeyInjective(requestId, c, requestId, c', ".pkl");
      IndexAndPickleDiffer(requestId, c, requestId, c');
      IndexAndPickleDiffer(requestId, c', requestId, c);
    }
  }

  function Max(a: int, b: int): int {
    if a >= b then a else b
  }

  /** `process_pdf(pdf_name, request_id)` on the already-split chunks: resume
      at `get_last_processed_chunk + 1` and run the loop to the end. */
  function ProcessPdf(layout: Layout, w: World, requestId: string, docs: seq<string>): (r: Run)
    // resumes at last + 1, in increasing order, each chunk at most once, up to the end
    ensures var start := LastProcessedChunk(w.checkpoints, requestId) + 1;
      && (forall i :: 0 <= i < |r.attempted| ==> r.attempted[i] == start + i)
      && start + |r.attempted| == Max(start, |docs|)
    ensures !r.stopped
    // nothing at or below an existing row of the request is handed to the transform
    ensures forall i, k :: 0 <= i < |r.attempted| && k in w.checkpoints && k.requestId == requestId ==>
      k.chunkId < r.attempted[i]
  {
    var start := LastProcessedChunk(w.checkpoints, requestId) + 1;
    VectorStoreRunNeverStops(layout, w, requestId, docs, start);
    RunChunks(VectorStoreStep(layout), w, requestId, docs, start)
  }

  /** Effect of `process_pdf` on one checkpoint key: existing rows are never
      rewritten, each attempted chunk gains a PROCESSED row, and no other row
      appears. */
  lemma ProcessPdfCheckpointAt(layout: Layout, w: World, requestId: string, docs: seq<string>, k: Key)
    ensures var r := ProcessPdf(layout, w, requestId, docs);
      var written := k.requestId == requestId && k.chunkId in r.attempted;
      && (k in r.world.checkpoints <==> k in w.checkpoints || written)
      && (k in w.checkpoints ==> r.world.checkpoints[k] == w.checkpoints[k])
      && (written ==> r.world.checkpoints[k] == Processed)
  {
    var start := LastProcessedChunk(w.checkpoints, requestId) + 1;
    var r := ProcessPdf(layout, w, requestId, docs);
    RunCheckpointAt(layout, w, requestId, docs, start, k);
    if Written(k, requestId, start, |docs|) {
      assert r.attempted[k.chunkId - start] == k.chunkId;
    }
  }

  /** Effect of `process_pdf` on the object store: every attempted chunk has
      its FAISS index and its pickle, both built from that chunk. */
  lemma ProcessPdfArtifactsAt(layout: Layout, w: World, requestId: string, docs: seq<string>, i: nat)
    ensures var r := ProcessPdf(layout, w, requestId, docs);
      i < |r.attempted| ==> HasArtifacts(r.world, layout, requestId, r.attempted[i], docs[r.attempted[i]])
  {
    var start := LastProcessedChunk(w.checkpoints, requestId) + 1;
    var r := ProcessPdf(layout, w, requestId, docs);
    assert r == RunChunks(VectorStoreStep(layout), w, requestId, docs, start);
    if i < |r.attempted| {
      var c := r.attempted[i];
      assert c == start + i;
      RunArtifactsAt(layout, w, requestId, docs, start, c);
    }
  }

  /** The checkpoint rows of a request are exactly chunks `[0, k)`, all
      PROCESSED. */
  ghost predicate CheckpointedPrefix(t: Table, requestId: string, k: nat) {
    forall c: nat :: (Key(requestId, c) in t <==> c < k) && (Key(requestId, c) in t ==> t[Key(requestId, c)] == Processed)
  }

  /** Resume correctness and the prefix invariant: from a table whose rows for
      the request are the PROCESSED prefix `[0, k)`, the run hands exactly
      chunks `[k, |docs|)` to the transform, in order, and leaves the PROCESSED
      prefix `[0, max(k, |docs|))`. */
  lemma ResumeKeepsPrefix(layout: Layout, w: World, requestId: string, docs: seq<string>, k: nat)
    requires CheckpointedPrefix(w.checkpoints, requestId, k)
    ensures var r := ProcessPdf(layout, w, requestId, docs);
      && |r.attempted| == Max(0, |docs| - k)
      && (forall i :: 0 <= i < |r.attempted| ==> r.attempted[i] == k + i)
      && CheckpointedPrefix(r.world.checkpoints, requestId, Max(k, |docs|))
  {
    var t := w.checkpoints;
    PrefixResumesAt(t, requestId, k);
    var r := ProcessPdf(layout, w, requestId, docs);
    var t' := r.world.checkpoints;
    forall c: nat
      ensures Key(requestId, c) in t' <==> c < Max(k, |docs|)
      ensures Key(requestId, c) in t' ==> t'[Key(requestId, c)] == Processed
    {
      ProcessPdfCheckpointAt(layout, w, requestId, docs, Key(requestId, c));
      if k <= c < |docs| {
        assert r.attempted[c - k] == c;
      }
    }
  }

  /** A request whose rows are the prefix `[0, k)` resumes at chunk `k`. */
  lemma PrefixResumesAt(t: Table, requestId: string, k: nat)
    requires CheckpointedPrefix(t, requestId, k)
    ensures LastProcessedChunk(t, requestId) == k - 1
  {
    if k == 0 {
      assert ChunksOf(t, requestId) == {};
    } else {
      assert Key(requestId, k - 1) in t;
    }
  }

  /** Where inside `create_vector_store` a call raises. Nothing in
      `process_pdf` catches it, so the run ends there. */
  datatype RaisePoint =
    | BeforeBucket        // embedding, FAISS, `save_local` or `create_bucket` raised
    | BeforeIndexUpload   // the bucket exists; the index upload raised
    | BeforePickleUpload  // the index is stored; the pickle upload raised
    | BeforeCheckpoint    // both artifacts are stored; `put_item` raised

  /** The world a run leaves when the call for chunk `j` raises at `at`: the
      chunks before `j` went through as in a run over `docs[..j]`, and of
      chunk `j` only the steps before the raise took effect. The loop reaches
      chunk `j` only when `j` is at least the resume point. */
  function InterruptedRun(layout: Layout, w: World, requestId: string, docs: seq<string>, j: nat, at: RaisePoint)
    : (w': World)
    requires LastProcessedChunk(w.checkpoints, requestId) < j < |docs|
    // rows: exactly those of a completed run over the chunks before `j`, none for `j`
    ensures w'.checkpoints == ProcessPdf(layout, w, requestId, docs[..j]).world.checkpoints
    ensures Key(requestId, j) !in w'.checkpoints
    // objects: those of that run, plus the orphan uploads of chunk `j`
    ensures var prior := ProcessPdf(layout, w, requestId, docs[..j]).world.objects;
      var index, pickle := IndexObject(layout, requestId, j), PickleObject(layout, requestId, j);
      && (at == BeforeBucket || at == BeforeIndexUpload ==> w'.objects == prior)
      && (at == BeforePickleUpload || at == BeforeCheckpoint ==> index in w'.objects && w'.objects[index] == docs[j])
      && (at == BeforeCheckpoint ==> pickle in w'.objects && w'.objects[pickle] == docs[j])
      && (at == BeforePickleUpload ==> (pickle in w'.objects <==> pickle in prior))
      && (forall o :: o != index && o != pickle ==> (o in w'.objects <==> o in prior))
      && (forall o :: o in prior && o != index && o != pickle ==> w'.objects[o] == prior[o])
  {
    var run := ProcessPdf(layout, w, requestId, docs[..j]);
    var w1 := run.world;
    var bucket := BucketFor(layout, requestId);
    var index, pickle := IndexObject(layout, requestId, j), PickleObject(layout, requestId, j);
    ProcessPdfCheckpointAt(layout, w, requestId, docs[..j], Key(requestId, j));
    IndexAndPickleDiffer(requestId, j, requestId, j);
    var created := if layout == PerRequestBucket && at != BeforeBucket then [CreateBucket(bucket)] else [];
    var objects :=
      match at
      case BeforeBucket => w1.objects
      case BeforeIndexUpload => w1.objects
      case BeforePickleUpload => w1.objects[index := docs[j]]
      case BeforeCheckpoint => w1.objects[index := docs[j]][pickle := docs[j]];
    var uploads :=
      match at
      case BeforeBucket => []
      case BeforeIndexUpload => []
      case BeforePickleUpload => [Upload(index)]
      case BeforeCheckpoint => [Upload(index), Upload(pickle)];
    w1.(buckets := if created == [] then w1.buckets else w1.buckets + {bucket},
        objects := objects,
        log := w1.log + created + uploads)
  }

  /** An interrupted run from the PROCESSED prefix `[0, k)` leaves the
      PROCESSED prefix `[0, j)`: the failing chunk and everything after it
      have no row. */
  lemma InterruptedRunLeavesPrefix(layout: Layout, w: World, requestId: string, docs: seq<string>, k: nat, j: nat,
                                   at: RaisePoint)
    requires CheckpointedPrefix(w.checkpoints, requestId, k)
    requires k <= j < |docs|
    ensures LastProcessedChunk(w.checkpoints, requestId) == k - 1
    ensures CheckpointedPrefix(InterruptedRun(layout, w, requestId, docs, j, at).checkpoints, requestId, j)
  {
    PrefixResumesAt(w.checkpoints, requestId, k);
    ResumeKeepsPrefix(layout, w, requestId, docs[..j], k);
  }

  /** The step as written: its first upload reads a file nobody wrote
      (`UploadReadsUnsavedFile`), so every run raises no later than that
      upload on the first chunk it reaches, at whichever raise point up to and
      including `BeforeIndexUpload`. No row is added, the resume point stays
      where it was, and the next run starts at the same chunk again. */
  lemma UploadAsWrittenNeverAdvances(layout: Layout, w: World, requestId: string, docs: seq<string>, at: RaisePoint)
    requires LastProcessedChunk(w.checkpoints, requestId) + 1 < |docs|
    ensures var j := LastProcessedChunk(w.checkpoints, requestId) + 1;
      var w' := InterruptedRun(layout, w, requestId, docs, j, at);
      && w'.checkpoints == w.checkpoints
      && LastProcessedChunk(w'.checkpoints, requestId) + 1 == j
  {
  }

  /** Why resuming exists: after a run from the prefix `[0, k)` that raised
      at chunk `j`, the next run over the same chunks starts exactly at `j`,
      processes `j` to the end in order, rewrites chunk `j`'s orphan
      artifacts from the chunk, and leaves every chunk PROCESSED. */
  lemma ResumeAfterInterruption(layout: Layout, w: World, requestId: string, docs: seq<string>, k: nat, j: nat,
                                at: RaisePoint)
    requires CheckpointedPrefix(w.checkpoints, requestId, k)
    requires k <= j < |docs|
    ensures LastProcessedChunk(w.checkpoints, requestId) == k - 1
    ensures var r := ProcessPdf(layout, InterruptedRun(layout, w, requestId, docs, j, at), requestId, docs);
      && |r.attempted| == |docs| - j
      && (forall i :: 0 <= i < |r.attempted| ==> r.attempted[i] == j + i)
      && HasArtifacts(r.world, layout, requestId, j, docs[j])
      && CheckpointedPrefix(r.world.checkpoints, requestId, |docs|)
  {
    InterruptedRunLeavesPrefix(layout, w, requestId, docs, k, j, at);
    var w' := InterruptedRun(layout, w, requestId, docs, j, at);
    ResumeKeepsPrefix(layout, w', requestId, docs, j);
    ProcessPdfArtifactsAt(layout, w', requestId, docs, 0);
  }

  /** Running again over the same chunks after a run that finished attempts
      nothing: a completed request is not reprocessed. */
  lemma RerunAfterCompletionIsNoop(layout: Layout, w: World, requestId: string, docs: seq<string>)
    ensures var r := ProcessPdf(layout, w, requestId, docs);
      ProcessPdf(layout, r.world, requestId, docs).attempted == []
  {
    var r := ProcessPdf(layout, w, requestId, docs);
    var t, t' := w.checkpoints, r.world.checkpoints;
    if |r.attempted| > 0 {
      var n := |r.attempted| - 1;
      ProcessPdfCheckpointAt(layout, w, requestId, docs, Key(requestId, r.attempted[n]));
      assert LastProcessedChunk(t', requestId) >= |docs| - 1;
    } else {
      forall k ensures k in t' <==> k in t {
        ProcessPdfCheckpointAt(layout, w, requestId, docs, k);
      }
      assert t'.Keys == t.Keys;
      assert ChunksOf(t', requestId) == ChunksOf(t, requestId);
      assert LastProcessedChunk(t', requestId) == LastProcessedChunk(t, requestId);
    }
  }

  /** Because the resume point trusts the highest row whatever its status, a
      chunk below it that has no row is not filled in by the run. */
  lemma ResumeNeverFillsGaps(layout: Layout, w: World, requestId: string, docs: seq<string>, c: nat)
    requires c < LastProcessedChunk(w.checkpoints, requestId)
    requires Key(requestId, c) !in w.checkpoints
    ensures Key(requestId, c) !in ProcessPdf(layout, w, requestId, docs).world.checkpoints
  {
    var r := ProcessPdf(layout, w, requestId, docs);
    ProcessPdfCheckpointAt(layout, w, requestId, docs, Key(requestId, c));
    assert c !in r.attempted;
  }

  /** The pipeline never writes FAILED: the FAILED rows after a run are
      exactly those before it. */
  lemma ProcessPdfWritesNoFailed(layout: Layout, w: World, requestId: string, docs: seq<string>, k: Key)
    ensures var t' := ProcessPdf(layout, w, requestId, docs).world.checkpoints;
      (k in t' && t'[k] == Failed) <==> (k in w.checkpoints && w.checkpoints[k] == Failed)
  {
    ProcessPdfCheckpointAt(layout, w, requestId, docs, k);
  }
}

=== FILE: resource_fetcher.dfy ===
/** The resource fetcher: finds the project's cloud resources by their tags.
    Each cloud listing call is replaced by the sequence of records it returned,
    in response order, and each per-resource tag call by the response that
    call returned for that resource. */
module ResourceFetcher {
  import opened Common
  import opened Text
  import opened Tags

  /** The tags every project resource carries (`self.tags`). */
  const PredefinedTags: map<string, string> :=
    map["Application" := "GPI-App", "Environment" := "Development", "Owner" := "Mohith"]

  /** `filter_by_tags(tags, resource_tags)`, on its own definition: the first
      parameter is never read, and the second is a Key/Value list turned into a
      dictionary (last duplicate wins) that must hold every predefined tag.
      Every selector calls it as `filter_by_tags(tags, self.tags)`, handing the
      predefined-tag dictionary in as the Key/Value list (app/aws_resource_fetcher.py
      lines 52, 61, 71 and the like); the selectors below apply it to the fetched
      list instead, as its definition reads. */
  predicate FilterByTags(tags: seq<Tag>, resourceTags: seq<Tag>)
  {
    var d := TagDict(resourceTags);
    forall k | k in PredefinedTags :: k in d && d[k] == PredefinedTags[k]
  }

  /** The filter passes exactly when, for every predefined tag, the LAST pair
      in the list with that key carries the predefined value. The first
      argument plays no part. */
  lemma FilterByTagsMeaning(tags: seq<Tag>, resourceTags: seq<Tag>)
    ensures FilterByTags(tags, resourceTags) <==>
      forall k :: k in PredefinedTags ==>
        exists i :: LastWithKey(resourceTags, k, i) && resourceTags[i].value == PredefinedTags[k]
  {
    forall k | k in PredefinedTags {
      TagDictLastWins(resourceTags, k);
    }
  }

  /** Appending a tag whose key is not predefined never changes the verdict. */
  lemma ExtraTagIrrelevant(tags: seq<Tag>, resourceTags: seq<Tag>, extra: Tag)
    requires extra.key !in PredefinedTags
    ensures FilterByTags(tags, resourceTags + [extra]) == FilterByTags(tags, resourceTags)
  {
  }

  /** A later duplicate of a predefined key overrides every earlier one: the
      list passes only if that last value is the predefined one, and a passing
      list keeps passing exactly when the duplicate repeats the right value. */
  lemma LastDuplicateDecides(tags: seq<Tag>, resourceTags: seq<Tag>, k: string, v: string)
    requires k in PredefinedTags
    ensures FilterByTags(tags, resourceTags + [Tag(k, v)]) ==> v == PredefinedTags[k]
    ensures FilterByTags(tags, resourceTags) ==>
      (FilterByTags(tags, resourceTags + [Tag(k, v)]) <==> v == PredefinedTags[k])
  {
  }

  /** A passing list holds at least one pair per predefined key, so at least
      three pairs; in particular the empty list never passes. */
  lemma PassingNeedsThreeTags(tags: seq<Tag>, resourceTags: seq<Tag>)
    ensures FilterByTags(tags, resourceTags) ==> |resourceTags| >= 3
  {
    if FilterByTags(tags, resourceTags) {
      FilterByTagsMeaning(tags, resourceTags);
      assert "Application" in PredefinedTags && "Environment" in PredefinedTags && "Owner" in PredefinedTags;
      var a :| LastWithKey(resourceTags, "Application", a);
      var e :| LastWithKey(resourceTags, "Environment", e);
      var o :| LastWithKey(resourceTags, "Owner", o);
      assert a != e && e != o && a != o;
    }
  }

  /** The tag API the fetcher calls for each resource type. */
  datatype TagApi =
    | Ec2DescribeTags
    | LambdaListTags
    | S3GetBucketTagging
    | DynamoDbListTagsOfResource
    | EcsListTagsForResource
    | IamListRoleTags
    | Elbv2ListTagsForResource

  /** What a tag API call returned: its optional `Tags` and `TagList` members. */
  datatype TagResponse = TagResponse(tags: Option<seq<Tag>>, tagList: Option<seq<Tag>>)

  /** Which API (if any) was called, and the tag list handed back. */
  datatype TagLookup = TagLookup(called: Option<TagApi>, tags: seq<Tag>)

  function TagApiFor(resourceType: string): Option<TagApi> {
    if resourceType == "subnet" then Some(Ec2DescribeTags)
    else if resourceType == "lambda" then Some(LambdaListTags)
    else if resourceType == "s3" then Some(S3GetBucketTagging)
    else if resourceType == "dynamodb" then Some(DynamoDbListTagsOfResource)
    else if resourceType == "ecs" then Some(EcsListTagsForResource)
    else if resourceType == "iam" then Some(IamListRoleTags)
    else if resourceType == "elbv2" then Some(Elbv2ListTagsForResource)
    else None
  }

  /** `get_tags_for_resource(resource_id, resource_type)`, given the response
      the dispatched call returns for this resource. */
  function GetTagsForResource(resourceType: string, response: TagResponse): (r: TagLookup)
    ensures r.called == TagApiFor(resourceType)
    ensures r.called.None? ==> r.tags == []
    ensures r.called.Some? && response.tags.Some? ==> r.tags == response.tags.value
    ensures r.called == Some(Elbv2ListTagsForResource) && response.tags.None? ==> r.tags == []
    ensures r.called.Some? && r.called != Some(Elbv2ListTagsForResource) && response.tags.None? ==>
      r.tags == response.tagList.GetOr([])
  {
    match TagApiFor(resourceType)
    case None => TagLookup(None, [])
    case Some(Elbv2ListTagsForResource) => TagLookup(Some(Elbv2ListTagsForResource), response.tags.GetOr([]))
    case Some(api) => TagLookup(Some(api), response.tags.GetOr(response.tagList.GetOr([])))
  }

  /** A resource of the given type is the project's when its fetched tags pass. */
  predicate ProjectTagged(resourceType: string, response: TagResponse) {
    var tags := GetTagsForResource(resourceType, response).tags;
    FilterByTags(tags, tags)
  }

  /** Index of the first element that passes, if any. */
  function FirstPassing<T>(xs: seq<T>, passes: T -> bool): (r: Option<nat>)
    ensures r.Some? ==> r.value < |xs| && passes(xs[r.value])
    ensures r.Some? ==> forall j :: 0 <= j < r.value ==> !passes(xs[j])
    ensures r.None? ==> forall j :: 0 <= j < |xs| ==> !passes(xs[j])
  {
    if |xs| == 0 then None
    else if passes(xs[0]) then Some(0)
    else
      match FirstPassing(xs[1..], passes)
      case None => None
      case Some(i) => Some(i + 1)
  }

  /** Indices of all elements that pass, in increasing order. */
  function PassingIndices<T>(xs: seq<T>, passes: T -> bool): (r: seq<nat>)
    ensures forall a, b :: 0 <= a < b < |r| ==> r[a] < r[b]
    ensures forall k :: 0 <= k < |r| ==> r[k] < |xs|
    ensures forall i: int :: i in r <==> 0 <= i < |xs| && passes(xs[i])
  {
    if |xs| == 0 then []
    else
      var init := xs[..|xs| - 1];
      var r0 := PassingIndices(init, passes);
      assert forall i :: 0 <= i < |init| ==> init[i] == xs[i];
      if passes(xs[|xs| - 1]) then r0 + [|xs| - 1] else r0
  }

  datatype LoadBalancer = LoadBalancer(arn: string, dnsName: string, tagResponse: TagResponse)
  datatype Vpc = Vpc(vpcId: string, tagResponse: TagResponse)
  datatype SubnetEntry = SubnetEntry(subnetId: string, tagResponse: TagResponse)
  datatype LambdaFunction = LambdaFunction(arn: string, name: string, tagResponse: TagResponse)
  datatype DynamoTable = DynamoTable(name: string, arn: string, tagResponse: TagResponse)
  datatype Bucket = Bucket(name: string, tagResponse: TagResponse)
  datatype ClusterEntry = ClusterEntry(arn: string, tagResponse: TagResponse)
  datatype TargetGroup = TargetGroup(arn: string, name: string, tags: seq<Tag>)
  datatype TargetGroupRef = TargetGroupRef(arn: string, name: string)
  datatype Role = Role(name: string, arn: string, tagResponse: TagResponse)

  predicate AlbPasses(lb: LoadBalancer) { ProjectTagged("elbv2", lb.tagResponse) }
  // VPC tags are fetched with the resource type 'subnet' (the EC2 tag call).
  predicate VpcPasses(v: Vpc) { ProjectTagged("subnet", v.tagResponse) }
  predicate SubnetPasses(s: SubnetEntry) { ProjectTagged("subnet", s.tagResponse) }
  predicate FunctionPasses(f: LambdaFunction) { ProjectTagged("lambda", f.tagResponse) }
  predicate BucketPasses(b: Bucket) { ProjectTagged("s3", b.tagResponse) }
  predicate ClusterPasses(c: ClusterEntry) { ProjectTagged("ecs", c.tagResponse) }
  predicate RolePasses(r: Role) { ProjectTagged("iam", r.tagResponse) }

  /** `get_alb`: DNS name of the first load balancer, in response order,
      whose tags pass; `None` when none does. */
  function GetAlb(lbs: seq<LoadBalancer>): (r: Option<string>)
    ensures r.Some? <==> exists i :: 0 <= i < |lbs| && AlbPasses(lbs[i])
    ensures forall i :: 0 <= i < |lbs| && AlbPasses(lbs[i]) && (forall j :: 0 <= j < i ==> !AlbPasses(lbs[j])) ==>
      r == Some(lbs[i].dnsName)
  {
    match FirstPassing(lbs, AlbPasses)
    case Some(i) => Some(lbs[i].dnsName)
    case None => None
  }

  /** `get_vpc`: id of the first VPC whose tags pass. */
  function GetVpc(vpcs: seq<Vpc>): (r: Option<string>)
    ensures r.Some? <==> exists i :: 0 <= i < |vpcs| && VpcPasses(vpcs[i])
    ensures forall i :: 0 <= i < |vpcs| && VpcPasses(vpcs[i]) && (forall j :: 0 <= j < i ==> !VpcPasses(vpcs[j])) ==>
      r == Some(vpcs[i].vpcId)
  {
    match FirstPassing(vpcs, VpcPasses)
    case Some(i) => Some(vpcs[i].vpcId)
    case None => None
  }

  /** `get_iam_role`: ARN of the first role whose tags pass. */
  function GetIamRole(roles: seq<Role>): (r: Option<string>)
    ensures r.Some? <==> exists i :: 0 <= i < |roles| && RolePasses(roles[i])
    ensures forall i :: 0 <= i < |roles| && RolePasses(roles[i]) && (forall j :: 0 <= j < i ==> !RolePasses(roles[j])) ==>
      r == Some(roles[i].arn)
  {
    match FirstPassing(roles, RolePasses)
    case Some(i) => Some(roles[i].arn)
    case None => None
  }

  /** `get_dynamodb_table`: the table when its tags pass, else `None`. */
  function GetDynamoDbTable(table: DynamoTable): (r: Option<string>)
    ensures r.Some? <==> ProjectTagged("dynamodb", table.tagResponse)
    ensures r.Some? ==> r.value == table.name
  {
    if ProjectTagged("dynamodb", table.tagResponse) then Some(table.name) else None
  }

  /** `get_subnets`: the ids of exactly the subnets whose tags pass, in
      response order. */
  function GetSubnets(subnets: seq<SubnetEntry>): (r: seq<string>)
    ensures var idx := PassingIndices(subnets, SubnetPasses);
      |r| == |idx| && forall k :: 0 <= k < |r| ==> r[k] == subnets[idx[k]].subnetId
  {
    var idx := PassingIndices(subnets, SubnetPasses);
    seq(|idx|, k requires 0 <= k < |idx| => subnets[idx[k]].subnetId)
  }

  /** `get_lambda_functions`: names of exactly the functions whose tags pass,
      in response order. */
  function GetLambdaFunctions(fns: seq<LambdaFunction>): (r: seq<string>)
    ensures var idx := PassingIndices(fns, FunctionPasses);
      |r| == |idx| && forall k :: 0 <= k < |r| ==> r[k] == fns[idx[k]].name
  {
    var idx := PassingIndices(fns, FunctionPasses);
    seq(|idx|, k requires 0 <= k < |idx| => fns[idx[k]].name)
  }

  /** `get_s3_buckets`: names of exactly the buckets whose tags pass, in
      response order. */
  function GetS3Buckets(buckets: seq<Bucket>): (r: seq<string>)
    ensures var idx := PassingIndices(buckets, BucketPasses);
      |r| == |idx| && forall k :: 0 <= k < |r| ==> r[k] == buckets[idx[k]].name
  {
    var idx := PassingIndices(buckets, BucketPasses);
    seq(|idx|, k requires 0 <= k < |idx| => buckets[idx[k]].name)
  }

  /** `get_ecs_clusters`: for exactly the clusters whose tags pass, in
      response order, the text after the last '/' of the ARN. */
  function GetEcsClusters(clusters: seq<ClusterEntry>): (r: seq<string>)
    ensures var idx := PassingIndices(clusters, ClusterPasses);
      |r| == |idx| && forall k :: 0 <= k < |r| ==> r[k] == LastField(clusters[idx[k]].arn, '/')
    ensures forall k :: 0 <= k < |r| ==> '/' !in r[k]
  {
    var idx := PassingIndices(clusters, ClusterPasses);
    seq(|idx|, k requires 0 <= k < |idx| => LastField(clusters[idx[k]].arn, '/'))
  }

  /** A target group is kept when ANY of its tags is a Name tag naming one of
      the two role target groups (no last-wins dictionary here). */
  predicate TargetGroupPasses(tg: TargetGroup) {
    exists t :: t in tg.tags && t.key == "Name" &&
      (t.value == "GPI-target-group-admin" || t.value == "GPI-target-group-user")
  }

  /** `get_target_groups`: ARN and name of exactly the kept groups, in
      response order. */
  function GetTargetGroups(groups: seq<TargetGroup>): (r: seq<TargetGroupRef>)
    ensures var idx := PassingIndices(groups, TargetGroupPasses);
      |r| == |idx| &&
      forall k :: 0 <= k < |r| ==> r[k] == TargetGroupRef(groups[idx[k]].arn, groups[idx[k]].name)
  {
    var idx := PassingIndices(groups, TargetGroupPasses);
    seq(|idx|, k requires 0 <= k < |idx| => TargetGroupRef(groups[idx[k]].arn, groups[idx[k]].name))
  }
}

=== FILE: router.dfy ===
/** `lambda_handler`, the routing function behind the load balancer: it reads
    the role from the path prefix and the consumer from the third '/'-field,
    and asks the fleet controller for one more container of that role. The
    region comes from the function's own configuration (`AWS_REGION`), here
    an input. */
module Router {
  import opened Common
  import opened Text
  import opened Fleet

  datatype Route = Route(role: string, image: string)

  /** `/admin/...` goes to the admin service, `/user/...` to the user
      service; any other path has no route. */
  function RouteOf(path: string): (r: Option<Route>)
    ensures r == Some(Route("admin", "admin-service")) <==> StartsWith(path, "/admin/")
    ensures r == Some(Route("user", "user-service")) <==> StartsWith(path, "/user/")
    ensures r.None? <==> !StartsWith(path, "/admin/") && !StartsWith(path, "/user/")
  {
    if StartsWith(path, "/admin/") then
      assert !StartsWith(path, "/user/") by { assert path[1] == 'a'; }
      Some(Route("admin", "admin-service"))
    else if StartsWith(path, "/user/") then Some(Route("user", "user-service"))
    else None
  }

  /** `path.split('/')[2] if len(path.split('/')) > 2 else None`. */
  function ConsumerName(path: string): (name: Option<string>)
    ensures name.None? <==> Count(path, '/') < 2
    ensures name.Some? ==> '/' !in name.value
  {
    var parts := Split(path, '/');
    SplitLength(path, '/');
    SplitJoin(path, '/');
    if |parts| > 2 then Some(parts[2]) else None
  }

  /** The consumer is the first '/'-field after the role: for
      `/{role}/{name}` and `/{role}/{name}/{rest}` alike it is `name`. */
  lemma ConsumerOfPath(role: string, after: string)
    requires '/' !in role
    ensures ConsumerName("/" + role + "/" + after) == Some(Split(after, '/')[0])
    ensures forall name, rest :: after == name + "/" + rest && '/' !in name ==> ConsumerName("/" + role + "/" + after) == Some(name)
    ensures '/' !in after ==> ConsumerName("/" + role + "/" + after) == Some(after)
  {
    FieldsOfRolePath(role, after);
    if '/' !in after {
      SplitNoSep(after, '/');
    }
    forall name, rest | after == name + "/" + rest && '/' !in name
      ensures Split(after, '/')[0] == name
    {
      FirstFieldBeforeSeparator(name, rest, '/');
    }
  }

  /** `("/" + role + "/" + after).split('/') == ["", role] + after.split('/')`. */
  lemma FieldsOfRolePath(role: string, after: string)
    requires '/' !in role
    ensures Split("/" + role + "/" + after, '/') == ["", role] + Split(after, '/')
  {
    var inner := role + ['/'] + after;
    SplitConcat(role, after, '/');
    SplitNoSep(role, '/');
    SplitConcat("", inner, '/');
    assert Split("", '/') == [""];
    assert "/" + role + "/" + after == "" + ['/'] + inner;
  }

  /** Every routed path has a consumer field, possibly empty (`/admin/`
      gives ""). */
  lemma RoutedPathHasConsumer(path: string)
    requires RouteOf(path).Some?
    ensures ConsumerName(path).Some?
  {
    var role := if StartsWith(path, "/admin/") then "admin" else "user";
    var after := path[|role| + 2..];
    assert path == "/" + role + "/" + after;
    FieldsOfRolePath(role, after);
  }

  const InvalidPath: Response := Response(400, "Invalid path")

  /** The handler with the corrected fleet controller. `path` is None when
      the event has no path (it then defaults to ""). */
  function LambdaHandler(c: Cluster, path: Option<string>, region: Option<string>, subnets: seq<Subnet>,
                         containerId: string): (r: (Cluster, Response))
    ensures RouteOf(path.GetOr("")).None? <==> r.1 == InvalidPath
    ensures r.1 == InvalidPath ==> r.0 == c
    ensures RouteOf(path.GetOr("")).Some? ==>
      var p := path.GetOr("");
      var route := RouteOf(p).value;
      && ConsumerName(p).Some?
      && (r.1.statusCode == 200 || r.1.statusCode == 500)
      && (r.1.statusCode == 500 ==> r.0 == c)
      // 200 exactly when a region is given and the first listing page agrees
      // with the cluster about the role's service
      && (r.1.statusCode == 200 <==>
            region.Some? &&
            (ServiceListed(ListServices(c), ServiceName(route.role, region.value)) <==>
               ServiceName(route.role, region.value) in c.services))
      // every other service keeps its record
      && (region.Some? ==>
            forall n :: n in c.services && n != ServiceName(route.role, region.value) ==>
              n in r.0.services && r.0.services[n] == c.services[n])
      && (r.1.statusCode == 200 ==>
            && region.Some?
            && var name := ServiceName(route.role, region.value);
            && name in r.0.services
            && r.1.body == HandledMessage(route.role, ConsumerName(p).value, containerId)
            // a new service runs the route's image for the path's consumer
            && (name !in c.services ==>
                  && r.0.services[name].taskDefinition == route.image
                  && r.0.services[name].containerName == ConsumerName(p).value
                  && r.0.services[name].desiredCount == 1)
            // an existing one gains exactly one task
            && (name in c.services ==>
                  r.0.services[name] == c.services[name].(desiredCount := c.services[name].desiredCount + 1)))
  {
    var p := path.GetOr("");
    match RouteOf(p)
    case None => (c, InvalidPath)
    case Some(route) =>
      RoutedPathHasConsumer(p);
      CreateOrUpdateService(c, subnets, ConsumerName(p).value, route.role, route.image, region, containerId)
  }

  /** The handler as written, whose every routed request reaches the failing
      controller. */
  function LambdaHandlerAsWritten(c: Cluster, path: Option<string>, region: Option<string>, subnets: seq<Subnet>)
    : (r: (Cluster, Response))
    ensures r.0 == c
    ensures RouteOf(path.GetOr("")).None? <==> r.1 == InvalidPath
    ensures RouteOf(path.GetOr("")).Some? ==> r.1.statusCode == 500
  {
    var p := path.GetOr("");
    match RouteOf(p)
    case None => (c, InvalidPath)
    case Some(route) =>
      RoutedPathHasConsumer(p);
      CreateOrUpdateAsWritten(c, subnets, ConsumerName(p).value, route.role, route.image, region)
  }

  /** A request for `/admin/{name}/{rest}` on an empty cluster, with the
      region known (say `/admin/acme/chat` in us-east-1): the code as written
      answers 500, the corrected controller starts the admin service of the
      region and answers 200 naming consumer `name`. */
  lemma AdminRequestOnEmptyCluster(cluster: string, name: string, rest: string, region: string, subnets: seq<Subnet>,
                                   id: string)
    requires '/' !in name
    ensures var c := Cluster(cluster, [], map[]);
      var path := "/admin/" + name + "/" + rest;
      var asWritten := LambdaHandlerAsWritten(c, Some(path), Some(region), subnets);
      var fixed := LambdaHandler(c, Some(path), Some(region), subnets, id);
      && asWritten.1.statusCode == 500
      && fixed.1 == Response(200, HandledMessage("admin", name, id))
      && ServiceName("admin", region) in fixed.0.services
  {
    var c := Cluster(cluster, [], map[]);
    var path := "/admin/" + name + "/" + rest;
    assert StartsWith(path, "/admin/");
    assert path == "/" + "admin" + "/" + (name + "/" + rest);
    ConsumerOfPath("admin", name + "/" + rest);
    assert !ServiceListed(ListServices(c), ServiceName("admin", region));
  }
}

=== FILE: tags.dfy ===
/** Resource tags as the cloud APIs return them: a list of Key/Value pairs in
    which a key may repeat. Both the resource fetcher and the fleet controller
    turn such a list into a dictionary with `{t['Key']: t['Value'] for t in tags}`,
    so the LAST pair with a given key is the one that counts. */
module Tags {

  datatype Tag = Tag(key: string, value: string)

  /** Index `i` holds the last pair in `ts` whose key is `k`. */
  ghost predicate LastWithKey(ts: seq<Tag>, k: string, i: int) {
    0 <= i < |ts| && ts[i].key == k && forall j :: i < j < |ts| ==> ts[j].key != k
  }

  /** The dictionary comprehension over a tag list. */
  function TagDict(ts: seq<Tag>): (d: map<string, string>)
    ensures |ts| == 0 ==> d == map[]
    ensures |ts| > 0 ==> ts[|ts| - 1].key in d && d[ts[|ts| - 1].key] == ts[|ts| - 1].value
  {
    if |ts| == 0 then map[]
    else TagDict(ts[..|ts| - 1])[ts[|ts| - 1].key := ts[|ts| - 1].value]
  }

  /** Each key of the dictionary maps to the value of the last pair carrying
      that key, and a key absent from the list is absent from the dictionary. */
  lemma {:induction false} TagDictLastWins(ts: seq<Tag>, k: string)
    ensures k in TagDict(ts) <==> exists i :: LastWithKey(ts, k, i)
    ensures forall i :: LastWithKey(ts, k, i) ==> TagDict(ts)[k] == ts[i].value
  {
    if |ts| > 0 {
      var n := |ts| - 1;
      var init := ts[..n];
      TagDictLastWins(init, k);
      var d0 := TagDict(init);
      assert TagDict(ts) == d0[ts[n].key := ts[n].value];
      if ts[n].key == k {
        LastIsLast(ts, k);
      } else {
        LastWithKeyDropLast(ts, k);
        if k in d0 {
          var i :| LastWithKey(init, k, i);
          assert LastWithKey(ts, k, i);
        }
      }
    }
  }

  lemma LastIsLast(ts: seq<Tag>, k: string)
    requires |ts| > 0 && ts[|ts| - 1].key == k
    ensures LastWithKey(ts, k, |ts| - 1)
    ensures forall i :: LastWithKey(ts, k, i) ==> i == |ts| - 1
  {
  }

  lemma LastWithKeyDropLast(ts: seq<Tag>, k: string)
    requires |ts| > 0 && ts[|ts| - 1].key != k
    ensures forall i :: LastWithKey(ts, k, i) <==> LastWithKey(ts[..|ts| - 1], k, i)
  {
  }

  /** `dict.get(k, default)` on the tag dictionary. */
  function TagValueOr(ts: seq<Tag>, k: string, default: string): (v: string)
    ensures (exists i :: LastWithKey(ts, k, i)) || v == default
    ensures forall i :: LastWithKey(ts, k, i) ==> v == ts[i].value
  {
    TagDictLastWins(ts, k);
    var d := TagDict(ts);
    if k in d then d[k] else default
  }
}

=== FILE: text.dfy ===
/** The string operations the system relies on, with the meaning Python gives
    them: `startswith`, `endswith`, `split(sep)` with a one-character separator,
    `split(sep)[-1]`, and `str(n)` for a non-negative integer. */
module Text {

  predicate StartsWith(s: string, prefix: string) {
    |prefix| <= |s| && s[..|prefix|] == prefix
  }

  predicate EndsWith(s: string, suffix: string) {
    |suffix| <= |s| && s[|s| - |suffix|..] == suffix
  }

  /** Glues `parts` back together with `sep` between neighbours. */
  function Join(parts: seq<string>, sep: char): string
  {
    if |parts| == 0 then ""
    else if |parts| == 1 then parts[0]
    else parts[0] + [sep] + Join(parts[1..], sep)
  }

  /** Python's `s.split(sep)`: the fields between separators, always at
      least one (`SplitJoin` states what they are). */
  function Split(s: string, sep: char): (parts: seq<string>)
    ensures |parts| >= 1
  {
    if |s| == 0 then [""]
    else
      var rest := Split(s[1..], sep);
      if s[0] == sep then [""] + rest
      else [[s[0]] + rest[0]] + rest[1..]
  }

  /** No field holds the separator, and joining the fields with the
      separator gives `s` back. */
  lemma {:induction false} SplitJoin(s: string, sep: char)
    ensures forall i :: 0 <= i < |Split(s, sep)| ==> sep !in Split(s, sep)[i]
    ensures Join(Split(s, sep), sep) == s
  {
    if |s| > 0 {
      var rest := Split(s[1..], sep);
      SplitJoin(s[1..], sep);
      assert s == [s[0]] + s[1..];
      if s[0] != sep {
        var first := [s[0]] + rest[0];
        assert first[1..] == rest[0];
        JoinCons(rest, s[0], sep);
      }
    }
  }

  lemma JoinCons(rest: seq<string>, c: char, sep: char)
    requires |rest| >= 1
    ensures Join([[c] + rest[0]] + rest[1..], sep) == [c] + Join(rest, sep)
  {
  }

  /** `Join` of fields none of which holds the separator yields exactly one
      separator per gap. */
  lemma {:induction false} JoinHasSepIffSeveralParts(parts: seq<string>, sep: char)
    requires |parts| >= 1
    requires forall i :: 0 <= i < |parts| ==> sep !in parts[i]
    ensures sep in Join(parts, sep) <==> |parts| >= 2
  {
  }

  lemma {:induction false} JoinSnoc(parts: seq<string>, x: string, sep: char)
    requires |parts| >= 1
    ensures Join(parts + [x], sep) == Join(parts, sep) + [sep] + x
  {
    if |parts| == 1 {
      assert parts + [x] == [parts[0], x];
      assert (parts + [x])[1..] == [x];
    } else {
      assert (parts + [x])[1..] == parts[1..] + [x];
      JoinSnoc(parts[1..], x, sep);
    }
  }

  /** Splitting at a separator splits each side independently:
      `(a + sep + b).split(sep) == a.split(sep) + b.split(sep)`. */
  lemma {:induction false} SplitConcat(a: string, b: string, sep: char)
    ensures Split(a + [sep] + b, sep) == Split(a, sep) + Split(b, sep)
  {
    var s := a + [sep] + b;
    SplitStep(s, sep);
    if |a| == 0 {
      assert s[1..] == b;
    } else {
      var t := a[1..] + [sep] + b;
      assert s[1..] == t;
      SplitConcat(a[1..], b, sep);
      SplitStep(a, sep);
      if a[0] != sep {
        FieldJoinsFirst(a[0], Split(a[1..], sep), Split(b, sep));
      }
    }
  }

  /** One unfolding of `Split`: a leading separator closes an empty field,
      any other character joins the first field. */
  lemma SplitStep(s: string, sep: char)
    requires |s| > 0
    ensures var rest := Split(s[1..], sep);
      Split(s, sep) == if s[0] == sep then [""] + rest else [[s[0]] + rest[0]] + rest[1..]
  {
  }

  lemma FieldJoinsFirst(c: char, ra: seq<string>, rb: seq<string>)
    requires |ra| >= 1
    ensures [[c] + (ra + rb)[0]] + (ra + rb)[1..] == ([[c] + ra[0]] + ra[1..]) + rb
  {
  }

  lemma {:induction false} SplitNoSep(s: string, sep: char)
    requires sep !in s
    ensures Split(s, sep) == [s]
  {
    if |s| > 0 {
      assert sep !in s[1..];
      SplitNoSep(s[1..], sep);
      assert s == [s[0]] + s[1..];
    }
  }

  /** Python's `s.split(sep)[-1]`: the text after the last separator, or the
      whole string when it holds none. */
  function LastField(s: string, sep: char): (f: string)
    ensures sep !in f
    ensures sep !in s ==> f == s
    ensures sep in s ==> |f| < |s| && s[|s| - |f| - 1] == sep && s[|s| - |f|..] == f
  {
    var ps := Split(s, sep);
    SplitLastField(s, sep);
    ps[|ps| - 1]
  }

  lemma SplitLastField(s: string, sep: char)
    ensures var ps := Split(s, sep); var f := ps[|ps| - 1];
      sep !in f &&
      (sep !in s ==> f == s) &&
      (sep in s ==> |f| < |s| && s[|s| - |f| - 1] == sep && s[|s| - |f|..] == f)
  {
    var ps := Split(s, sep);
    SplitJoin(s, sep);
    if sep !in s {
      SplitNoSep(s, sep);
    } else {
      SplitAtLastSeparator(s, sep);
      FieldAfterSeparator(Join(ps[..|ps| - 1], sep), ps[|ps| - 1], sep, s);
    }
  }

  /** A string holding the separator is the join of all fields but the last,
      the separator, and the last field. */
  lemma SplitAtLastSeparator(s: string, sep: char)
    requires sep in s
    ensures var ps := Split(s, sep);
      |ps| >= 2 && s == Join(ps[..|ps| - 1], sep) + [sep] + ps[|ps| - 1]
  {
    var ps := Split(s, sep);
    SplitJoin(s, sep);
    JoinHasSepIffSeveralParts(ps, sep);
    var init, f := ps[..|ps| - 1], ps[|ps| - 1];
    assert ps == init + [f];
    JoinSnoc(init, f, sep);
  }

  lemma FieldAfterSeparator(head: string, f: string, sep: char, s: string)
    requires s == head + [sep] + f
    ensures |f| < |s| && s[|s| - |f| - 1] == sep && s[|s| - |f|..] == f
  {
  }

  /** Two strings that end in a separator-free field after a separator agree
      when and only when both the heads and the last fields agree. */
  lemma {:induction false} LastSeparatorDetermines(x: string, y: string, x': string, y': string, sep: char)
    requires sep !in y && sep !in y'
    requires x + [sep] + y == x' + [sep] + y'
    ensures x == x' && y == y'
  {
    var s := x + [sep] + y;
    SplitConcat(x, y, sep);
    SplitConcat(x', y', sep);
    SplitNoSep(y, sep);
    SplitNoSep(y', sep);
    var ps := Split(s, sep);
    assert y == ps[|ps| - 1] == y';
    assert x == s[..|x|] == x';
  }

  /** Occurrences of `c` in `s`. */
  function Count(s: string, c: char): nat {
    if |s| == 0 then 0 else (if s[0] == c then 1 else 0) + Count(s[1..], c)
  }

  /** `len(s.split(sep)) == s.count(sep) + 1`. */
  lemma {:induction false} SplitLength(s: string, sep: char)
    ensures |Split(s, sep)| == Count(s, sep) + 1
  {
    if |s| > 0 {
      SplitLength(s[1..], sep);
    }
  }

  /** The first field of `x + sep + y` is `x` when `x` holds no separator. */
  lemma FirstFieldBeforeSeparator(x: string, y: string, sep: char)
    requires sep !in x
    ensures Split(x + [sep] + y, sep)[0] == x
  {
    SplitConcat(x, y, sep);
    SplitNoSep(x, sep);
  }

  predicate IsDigit(c: char) {
    '0' <= c <= '9'
  }

  function DigitChar(d: nat): (c: char)
    requires d < 10
    ensures IsDigit(c)
  {
    (d + '0' as int) as char
  }

  /** `str(n)` for a non-negative integer: its decimal digits, most
      significant first, without leading zeros. */
  function NatToString(n: nat): (s: string)
    ensures |s| >= 1
    ensures forall i :: 0 <= i < |s| ==> IsDigit(s[i])
    ensures |s| > 1 ==> s[0] != '0'
    decreases n
  {
    if n < 10 then [DigitChar(n)]
    else NatToString(n / 10) + [DigitChar(n % 10)]
  }

  function DigitValue(c: char): (d: nat)
    requires IsDigit(c)
    ensures d < 10
  {
    c as int - '0' as int
  }

  /** `int(s)` for a string of decimal digits. */
  function DigitsValue(s: string): nat
    requires forall i :: 0 <= i < |s| ==> IsDigit(s[i])
  {
    if |s| == 0 then 0
    else DigitsValue(s[..|s| - 1]) * 10 + DigitValue(s[|s| - 1])
  }

  /** `int(str(n)) == n`: the decimal rendering loses nothing. */
  lemma {:induction false} NatToStringRoundTrip(n: nat)
    ensures DigitsValue(NatToString(n)) == n
    decreases n
  {
    var s := NatToString(n);
    if n >= 10 {
      NatToStringRoundTrip(n / 10);
      assert s[..|s| - 1] == NatToString(n / 10);
    }
  }

  lemma NatToStringInjective(m: nat, n: nat)
    ensures NatToString(m) == NatToString(n) <==> m == n
  {
    if NatToString(m) == NatToString(n) {
      NatToStringRoundTrip(m);
      NatToStringRoundTrip(n);
    }
  }
}
